=== FILE: README.md ===
# SMS provider selection and delivery state machine

This project models the SMS component of the attestation service,
`packages/attestation-service/src/sms/index.ts`, in Dafny, and proves properties of it.

The component has a registry and an orchestrator:

- **Registry.** It holds the provider registry, built from `SMS_PROVIDERS`. It answers
  questions about the registry: the configured names, lookup by type, providers that send
  delivery receipts, and the region codes no provider serves. It also picks the candidate
  providers for a phone number from the region's override list `SMS_PROVIDERS_<countryCode>`.
- **Orchestrator.** It runs each outbound SMS (an `SmsDelivery`) through a retry and failover
  state machine:
  - every attempt increments a per-provider counter and calls the head provider's `sendSms`;
  - a failed send backs off `2^attempts` seconds and retries;
  - once the counter exceeds `MAX_PROVIDER_RETRIES`, the head provider is dropped;
  - when no provider is left, the final-failure callback is invoked;
  - a successful send to a provider with receipts is tracked under its id in
    `ongoingDeliveries`, with a cleanup timer armed;
  - delivery receipts either confirm the delivery (`Delivered`) or schedule a resend
    (`Failed`).

The modules follow the source's structure:

| module | file | what it holds |
|---|---|---|
| `Common` | common.dfy | `Option`, and powers of two for the backoff delays |
| `Text` | text.dfy | JavaScript `split(',')` and `join(',')` with their round-trip lemmas |
| `Registry` | registry.dfy | providers, `initializeSmsProviders`, and the registry queries |
| `Deliveries` | deliveries.dfy | the `SmsDelivery` record and the per-delivery send-budget invariant |
| `Orchestrator` | orchestrator.dfy | the world state and its transitions: `startSendSms`, the attempt, the send completion, the cleanup timer and `receivedDeliveryReport` |
| `Backoff` | backoff.dfy | repeated failures on one provider and the growth of the backoff delay |
| `Invariants` | invariants.dfy | the invariant every transition keeps, and the send bound for every reachable world |
| `Quirks` | quirks.dfy | behaviour of the code as written that its comments do not suggest |
| `Scenarios` | scenarios.dfy | worked runs with every intermediate world written out |

## How asynchrony is modelled

JavaScript runs `attemptToSendSms` from its first line to the `await` on `sendSms` without
interruption. That prefix (lines 119–157) is one transition, `AttemptPrefix`.

Work the event loop still owes becomes an `Event` in a multiset of pending events:

- the send settling;
- the backoff sleep ending;
- the resend timer after a `Failed` receipt;
- the receipt cleanup timer.

`Next` fires any pending event, or accepts a call into the module. No order among timers is
assumed. So every property proved about `Run` holds for every interleaving of sends,
receipts and timers.

The completion of a send (lines 159–213) is its own transition, `CompleteSend`. It reads
`providers[0]` afresh, as the source does. Because of this, a second attempt chain on the
same delivery (started by a resend) can change the head in between. The completion event
records the provider it was sent `via`, and `Quirks.CompletionReportsCurrentHead` shows
a completion reporting a provider other than that one.

`WellFormed` says that every handle in the tracker and in the pending events names a
created delivery. It holds in every reachable world (`Next` ensures it). The transitions
that look a handle up take it as a precondition.

## Behaviour of the code as written

The model follows the code. The following are consequences of the code that its comments
and structure do not suggest. Each is proved in `Quirks`.

- **The override fallback never applies.** `''.split(',')` is `['']`, so the fallback to all
  configured providers (line 56) never applies. A region without `SMS_PROVIDERS_<cc>` has
  no candidate, and `startSendSms` raises "No SMS providers available" for it.
- **The empty-list check is dead.** For the same reason, the check at line 24 can never
  fire. If the value of `SMS_PROVIDERS` reaches `split` as `""`, configuration fails as the
  unknown type `""`.
- **Each provider gets one extra try.** The failover test at line 125 is `>`, so when the
  maximum is not negative a provider is tried `MAX_PROVIDER_RETRIES + 1` times (once when it is).
- **The receipt handler clears the wrong entry.** It writes
  `ongoingDeliveries.deliveryId = null` (lines 255 and 261). That sets the tracker entry
  literally named `"deliveryId"`; `delivery.deliveryId` keeps its value. This has two
  consequences:
  - after a `Delivered` receipt, the cleanup timer for that id still matches, and the
    believed-delivered callback is invoked a second time;
  - after a `Failed` receipt, the resend puts the old id back into the tracker (line 120),
    where its cleanup timer no longer removes it.

Several comments in the file promise more than the code does. The model follows the code:

- **Attempts per provider.** Line 113 calls `MAX_PROVIDER_RETRIES` the "Maximum delivery
  attempts with any one provider". The test at line 125 allows one attempt more, so the
  proved bound is `candidates × PerProvider(MAX_PROVIDER_RETRIES)`: `MAX_PROVIDER_RETRIES + 1`,
  or 1 when the maximum is negative (`Invariants.ReachableSendBound`).
- **Providers for a number.** Lines 51–52 promise "all SMS providers for the given phone
  number, in order of preference for that region". Line 54 never falls back, so a region
  without an override list gets none (`Quirks.NoOverrideNoCandidates`).
- **Cleanup timer.** Line 187 arms the timer "to clean up in event of no delivery receipt".
  After a `Delivered` receipt it still matches, and it invokes the believed-delivered
  callback again (`Quirks.DeliveredThenExpiryFiresTwice`).
- **Empty provider list.** The error "You have to specify at least one sms provider"
  (line 25) is never raised (`Quirks.EmptyProviderListIsUnknownType`).

## Model

| member | source | states |
|---|---|---|
| Registry.ParseType | packages/attestation-service/src/sms/index.ts:32-46 | a name selects a provider type only when it is that type's name (taken to be "nexmo" or "twilio"; see Left out), and a type's name always selects it |
| Registry.ConfiguredSmsProviders | packages/attestation-service/src/sms/index.ts:68-70 | the configured names, one per provider in registration order |
| Registry.SmsProviderOfType | packages/attestation-service/src/sms/index.ts:64-66 | a provider is found iff its name is among the configured names; the one found has that name and is registered; in a registry without duplicate names it is the provider with that name |
| Registry.Register | packages/attestation-service/src/sms/index.ts:28-48 | registration only appends; each appended provider is built for its type; it never fails with "no providers"; it adds at most one provider per listed name |
| Registry.RegisterSpec | packages/attestation-service/src/sms/index.ts:28-48 | registration stops at the first duplicate or unknown name with that error, having registered exactly the names before it; with no such name it registers all of them |
| Registry.RegisterKeepsUnique | packages/attestation-service/src/sms/index.ts:29-30 | the duplicate check keeps the registry free of repeated names |
| Registry.Configure | packages/attestation-service/src/sms/index.ts:17-49 | configuration only appends to the registry and never reports an empty provider list |
| Registry.ConfigureSpec | packages/attestation-service/src/sms/index.ts:20-48 | configuration succeeds iff every listed name is known and none repeats a registered or earlier name; on success the new names joined with commas give back `SMS_PROVIDERS`; the registry stays free of duplicates |
| Registry.Resolve | packages/attestation-service/src/sms/index.ts:58 | one entry per override name, in order: the configured provider of that type that `SmsProviderOfType` finds, or none when the name is not configured |
| Registry.Serving | packages/attestation-service/src/sms/index.ts:59-61 | every provider kept can serve the number and was present in the pool, and every present provider that can serve the number is kept |
| Registry.SmsProvidersFor | packages/attestation-service/src/sms/index.ts:53-61 | every candidate can serve the number, is registered, and is named in the region's override list; a listed name that resolves yields its provider iff that provider can serve the number |
| Registry.SmsProvidersForConcat | packages/attestation-service/src/sms/index.ts:54-61 | the candidates for `a,rest` are the candidates for `a` followed by those for `rest`: the override order is the preference order |
| Registry.SmsProvidersForOne | packages/attestation-service/src/sms/index.ts:54-61 | a one-name override yields that provider iff it is registered and can serve the number, and nothing otherwise |
| Registry.SmsProvidersWithDeliveryStatus | packages/attestation-service/src/sms/index.ts:72-74 | exactly the registered providers that send receipts |
| Registry.WithDeliveryStatusConcat | packages/attestation-service/src/sms/index.ts:72-74 | the receipt filter distributes over concatenation, so registration order is kept |
| Registry.UnsupportedRegionCodes | packages/attestation-service/src/sms/index.ts:76-78 | a code is in the result iff every registered provider lists it as unsupported; with no provider registered the result is empty |
| Text.Split | packages/attestation-service/src/sms/index.ts:20 | JavaScript `split(',')`, as used here and at line 54: the result is never empty and no piece contains the separator; `Join` gives the value back (`Text.JoinSplit`) |
| Text.JoinSplit | packages/attestation-service/src/sms/index.ts:20 | splitting a configuration value at commas and joining it again gives back the value |
| Text.SplitJoin | packages/attestation-service/src/sms/index.ts:54 | comma-free names joined with commas split back into the same names |
| Deliveries.NewDeliveryInv | packages/attestation-service/src/sms/index.ts:98-108 | a new delivery (counter 0, no id, status NotCreated) satisfies the send-budget invariant |
| Deliveries.SendBound | packages/attestation-service/src/sms/index.ts:124-146 | a delivery satisfying the invariant has sent at most `PerProvider(MAX_PROVIDER_RETRIES)` times per initial candidate: `MAX_PROVIDER_RETRIES + 1`, or 1 when the maximum is negative |
| Orchestrator.AttemptPrefix | packages/attestation-service/src/sms/index.ts:118-157 | a previous id is put back into the tracker and cleared; the head is dropped iff the counter exceeds the maximum; a send happens iff a provider is left, with the counter in 1..PerProvider(max); otherwise the failure callback fires and the attempt raises |
| Orchestrator.CompleteSend | packages/attestation-service/src/sms/index.ts:157-213 | a failed send schedules a retry after `2^attempts * 1000` ms; a successful one returns the current head's type, and tracks the id and arms the cleanup timer exactly when that provider sends receipts; an empty list raises |
| Orchestrator.FireExpiry | packages/attestation-service/src/sms/index.ts:187-196 | the cleanup timer acts only while the delivery still holds its id; it then forgets the id, fires the believed-delivered callback once and clears the id |
| Orchestrator.ReceivedDeliveryReport | packages/attestation-service/src/sms/index.ts:221-266 | an untracked id is ignored; otherwise the status is recorded; Delivered forgets the id and fires the callback; Failed forgets it and schedules a resend after `2^attempts * 3000` ms; other statuses change nothing else; the delivery's own id is never cleared |
| Orchestrator.StartSendSms | packages/attestation-service/src/sms/index.ts:82-111 | an unparsable number or a region without candidates raises and creates nothing; otherwise a fresh delivery over the candidates is created under a new handle, leaving the others untouched; when the maximum is not negative its first attempt sends to the first candidate with counter 1 (with a negative maximum line 125 drops that candidate before any send) |
| Orchestrator.FirstAttempt | packages/attestation-service/src/sms/index.ts:105-157 | the first attempt on a fresh delivery tracks nothing; when the maximum is not negative it sends to the first candidate with counter 1 |
| Orchestrator.Next | packages/attestation-service/src/sms/index.ts:17-266 | every step keeps handles in the tracker and in pending events pointing at created deliveries, keeps the configuration, and never removes a delivery |
| Backoff.RetryRounds | packages/attestation-service/src/sms/index.ts:124-146 | `j` rounds of module steps on a delivery with a send in flight, each firing the send's failed completion and then its backoff retry through `Next`: while the counter stays within the maximum the delivery keeps its head provider, its counter grows by exactly `j`, a send is again in flight and the pending events are as before |
| Backoff.BackoffDoubles | packages/attestation-service/src/sms/index.ts:199-212 | firing a failed completion at counter `k` schedules a backoff of `2^k * 1000` ms; after `j` more such rounds on the same provider the failed completion schedules `2^(k+j) * 1000` ms, which is `2^j` times as long, strictly longer once `j > 0` |
| Invariants.InitInv | packages/attestation-service/src/sms/index.ts:12-16 | the initial state satisfies the invariant |
| Invariants.NextPreserves | packages/attestation-service/src/sms/index.ts:118-266 | every step keeps the invariant, including a registry free of duplicate types; each delivery's candidates only lose their head; its counter grows by at most one per step; its sends grow by at most one |
| Invariants.RunPreserves | packages/attestation-service/src/sms/index.ts:118-266 | the invariant holds after any interleaving of calls, receipts and timers |
| Invariants.ReachableRegistryUnique | packages/attestation-service/src/sms/index.ts:28-43 | in every reachable world no two configured providers share a type, so the by-type object and the provider list agree |
| Invariants.ReachableSendBound | packages/attestation-service/src/sms/index.ts:113-146 | in every reachable world each delivery has sent at most `PerProvider(MAX_PROVIDER_RETRIES)` times per initial candidate (`MAX_PROVIDER_RETRIES + 1`, or 1 when the maximum is negative), counting backoff retries and receipt-driven resends; its candidates are a suffix of the initial ones |
| Quirks.OverrideFallbackUnreachable | packages/attestation-service/src/sms/index.ts:54-58 | the override list always splits into at least one name, so the candidates are always drawn from the names in it |
| Quirks.NoOverrideNoCandidates | packages/attestation-service/src/sms/index.ts:54-61 | a region without an override list has no candidate provider |
| Quirks.NoOverrideRejectsSend | packages/attestation-service/src/sms/index.ts:93-96 | `startSendSms` raises "No SMS providers available" for every region without an override list |
| Quirks.EmptyProviderListIsUnknownType | packages/attestation-service/src/sms/index.ts:20-46 | if the value of `SMS_PROVIDERS` reaches `split` as "", configuration fails as the unknown type "" and registers nothing; the empty-list error is never raised |
| Quirks.DeliveredThenExpiryFiresTwice | packages/attestation-service/src/sms/index.ts:253-258 | after a Delivered receipt the cleanup timer still matches, so the believed-delivered callback fires twice |
| Quirks.DeliveredTwiceIsIgnored | packages/attestation-service/src/sms/index.ts:226-227 | a repeated Delivered receipt changes nothing |
| Quirks.FailedReceiptRetracksOldId | packages/attestation-service/src/sms/index.ts:259-264 | after a Failed receipt the resend tracks the old id again and clears it from the delivery, so the old id's cleanup timer no longer removes it |
| Quirks.OneExtraTryPerProvider | packages/attestation-service/src/sms/index.ts:125-128 | with a maximum that is not negative, a provider is still sent to at counter `MAX_PROVIDER_RETRIES + 1` and dropped only on the attempt after |
| Quirks.CompletionReportsCurrentHead | packages/attestation-service/src/sms/index.ts:125-198 | when a resend drops the head while another send is in flight, that send's completion, recorded via the old head, returns the new head's type |
| Scenarios.Configures | packages/attestation-service/src/sms/index.ts:20-38 | `SMS_PROVIDERS=nexmo` registers Nexmo |
| Scenarios.Starts | packages/attestation-service/src/sms/index.ts:82-157 | a send to a GB number whose override list names Nexmo creates delivery 0 and sends to Nexmo |
| Scenarios.DeliveredReceipt | packages/attestation-service/src/sms/index.ts:182-198 | a successful send is tracked under its id, and a Delivered receipt fires the callback once and forgets the id |
| Scenarios.ExpiryWithoutReceipt | packages/attestation-service/src/sms/index.ts:188-196 | without a receipt, the cleanup timer fires the callback and forgets the id |
| Scenarios.FailedSendBacksOff | packages/attestation-service/src/sms/index.ts:199-212 | after the k-th failed send the retry waits `2^k` seconds |
| Scenarios.RetryResends | packages/attestation-service/src/sms/index.ts:124-157 | with a maximum of 3, the retries after counters 0 to 3 send to the same provider again |
| Scenarios.OnlyProviderExhausted | packages/attestation-service/src/sms/index.ts:124-143 | after four failed sends the only provider is dropped, the failure callback fires once, and the attempt raises |
| Scenarios.FailedReceiptSchedulesResend | packages/attestation-service/src/sms/index.ts:259-264 | a Failed receipt after the first send forgets the id and schedules a resend after 6 seconds |
| Scenarios.ResendRetracks | packages/attestation-service/src/sms/index.ts:119-157 | the resend continues the same provider's counter at 2 and tracks the old id again |
| Scenarios.StaleExpiryIgnored | packages/attestation-service/src/sms/index.ts:188-189 | the old id's cleanup timer then does nothing |

## Left out

- Provider construction (`NexmoSmsProvider.fromEnv`, `initialize`, the delivery-status URL): a provider is its type plus a `Capabilities` value supplied by the caller of `Initialize`. The provider modules are not part of this model.
- `sendSms` itself: its outcome (an id, or a thrown error) is an input of the completion event.
- Phone-number parsing (`google-libphonenumber`): the region code it yields is an input of `StartSendSms`. `None` or `""` stands for a number without a region.
- `fetchEnv('SMS_PROVIDERS')`: the string it returns is the input of `Initialize`. `fetchEnv` itself lives in a module that is not part of this model; what it does for an unset or empty variable (for example, throwing) is not modelled.
- Environment reads: `MAX_PROVIDER_RETRIES`, `TIMEOUT_CLEANUP_NO_RECEIPT_MIN` and `SMS_PROVIDERS_<cc>` are fields of `Config`. The `NaN` that `parseInt` gives for a non-numeric value is not modelled: the maximum is any integer.
- Logging and the Prometheus counters: these are observable side effects only.
- `createdCallback`: `startSendSms` never sets it.
- Real time: sleeps and timers are pending events that may fire in any order. Their delays are recorded on the event but do not order the events.
- Floating point: `Math.pow(2, n) * 1000` is computed exactly. Overflow to `Infinity` for huge counters is not modelled.
- A rejected promise returned by the re-entry from a resend timer (`void attemptToSendSms`): the raise is a reply that nobody awaits.
- Property names that JavaScript objects inherit (`constructor`, `toString`, …): `smsProvidersByType` and `ongoingDeliveries` are modelled as maps without them.
- Concurrent calls of `initializeSmsProviders`: each configuration step is atomic.
- Registry.UnsupportedRegionCodes: the intersection helper is not part of this model. The intersection of no lists is taken to be empty.
- Registry.ParseType: the `SmsProviderType` enum and each provider's `type` are declared in the provider base module, which is not part of this model. Their values are assumed to be the strings `"nexmo"` and `"twilio"`.
- Deliveries.DeliveryStatus: the status enum is declared in the provider base module, which is not part of this model. Statuses other than `NotCreated`, `Created`, `Delivered` and `Failed` are represented by `Interim`.
- `canServePhoneNumber` and `unsupportedRegionCodes` of each provider are capabilities supplied with the provider. Their implementations, including how a provider's denylist is consulted, are in the provider modules.
- Callback counts: "each completion callback fires at most once" is not stated, because the code as written does not keep it (`Quirks.DeliveredThenExpiryFiresTwice`).
- Registry.ConfiguredSmsProviders: stated pointwise. Its partner is `Registry.ConfigureSpec`, which relates the names to the configuration value.
- Orchestrator.CompleteSend: when the delivery has no provider left at completion time (a second chain dropped the last one), the source throws a `TypeError` from the log statement. The model raises `NoCurrentProvider` and leaves the state unchanged. The rejection from the `catch` block's own log statement is not distinguished.

=== FILE: backoff.dfy ===
/**
  Exponential backoff on one provider: a failed send sleeps `2^attempts * 1000` ms before
  the next attempt, and every retry on the same provider raises the counter by one, so each
  further failure doubles the delay.
*/
module Backoff {
  import opened Common
  import opened Registry
  import opened Deliveries
  import opened Orchestrator

  /** Delivery `h` has a head provider and a send to it is in flight. */
  ghost predicate InFlight(w: World, h: Handle) {
    && h in w.deliveries
    && |w.deliveries[h].providers| > 0
    && SendCompletion(h, w.deliveries[h].providers[0].kind) in w.pending
  }

  /** The backoff event a failed send at the delivery's current counter schedules. */
  function BackoffOf(w: World, h: Handle): Event
    requires h in w.deliveries
  {
    BackoffRetry(h, Pow2(w.deliveries[h].attemptsForThisProvider) * 1000)
  }

  /** The in-flight send fails: the completion is consumed and the backoff is scheduled. */
  lemma FailStep(w: World, h: Handle)
    requires WellFormed(w) && InFlight(w, h)
    ensures var e := SendCompletion(h, w.deliveries[h].providers[0].kind);
      Next(w, Fire(e, SendFailed))
        == Step(w.(pending := w.pending - multiset{e} + multiset{BackoffOf(w, h)}), Suspended)
  {
  }

  /** The backoff ends while the counter is within the maximum: the same provider is sent to again. */
  lemma RetryStep(w: World, h: Handle, e: Event)
    requires WellFormed(w) && h in w.deliveries && |w.deliveries[h].providers| > 0
    requires w.deliveries[h].attemptsForThisProvider <= w.config.maxProviderAttempts
    requires e == BackoffOf(w, h) && e in w.pending
    ensures var d, w' := w.deliveries[h], Next(w, Fire(e, SendFailed)).world;
      && w'.deliveries[h].providers == d.providers
      && w'.deliveries[h].attemptsForThisProvider == d.attemptsForThisProvider + 1
      && w'.pending == w.pending - multiset{e} + multiset{SendCompletion(h, d.providers[0].kind)}
  {
    var w0 := w.(pending := w.pending - multiset{e});
    assert Next(w, Fire(e, SendFailed)) == AttemptPrefix(w0, h);
  }

  /**
    One round of the module on delivery `h`: the in-flight send fails (`Next` fires its
    completion), then the backoff sleep ends (`Next` fires the retry), which sends again.
  */
  function RetryRound(w: World, h: Handle): (w': World)
    requires WellFormed(w) && InFlight(w, h)
    requires w.deliveries[h].attemptsForThisProvider <= w.config.maxProviderAttempts
    ensures WellFormed(w') && InFlight(w', h) && w'.config == w.config
    ensures var d, d' := w.deliveries[h], w'.deliveries[h];
      && d'.providers == d.providers
      && d'.attemptsForThisProvider == d.attemptsForThisProvider + 1
      && w'.pending == w.pending
  {
    var e1 := SendCompletion(h, w.deliveries[h].providers[0].kind);
    var w1 := Next(w, Fire(e1, SendFailed)).world;
    FailStep(w, h);
    var e2 := BackoffOf(w, h);
    assert w1.deliveries == w.deliveries && w1.config == w.config;
    assert e2 == BackoffOf(w1, h) && e2 in w1.pending;
    RetryStep(w1, h, e2);
    var w2 := Next(w1, Fire(e2, SendFailed)).world;
    assert w2.pending == w.pending by {
      assert w1.pending - multiset{e2} == w.pending - multiset{e1};
    }
    w2
  }

  /** `j` such rounds in a row. */
  function RetryRounds(w: World, h: Handle, j: nat): (w': World)
    requires WellFormed(w) && InFlight(w, h)
    requires w.deliveries[h].attemptsForThisProvider + j <= w.config.maxProviderAttempts + 1
    ensures WellFormed(w') && InFlight(w', h) && w'.config == w.config
    ensures var d, d' := w.deliveries[h], w'.deliveries[h];
      && d'.providers == d.providers
      && d'.attemptsForThisProvider == d.attemptsForThisProvider + j
      && w'.pending == w.pending
    decreases j
  {
    if j == 0 then w else RetryRounds(RetryRound(w, h), h, j - 1)
  }

  /**
    While the head provider is kept, the backoff the module schedules after `j` further
    failed sends on it is `2^j` times the backoff it schedules now, and strictly longer
    once `j > 0`.
  */
  lemma BackoffDoubles(w: World, h: Handle, j: nat)
    requires WellFormed(w) && InFlight(w, h)
    requires w.deliveries[h].attemptsForThisProvider + j <= w.config.maxProviderAttempts + 1
    ensures var k := w.deliveries[h].attemptsForThisProvider;
      var e := SendCompletion(h, w.deliveries[h].providers[0].kind);
      var later := RetryRounds(w, h, j);
      && Next(w, Fire(e, SendFailed)).world.pending
           == w.pending - multiset{e} + multiset{BackoffRetry(h, Pow2(k) * 1000)}
      && e in later.pending
      && Next(later, Fire(e, SendFailed)).world.pending
           == later.pending - multiset{e} + multiset{BackoffRetry(h, Pow2(k + j) * 1000)}
      && Pow2(k + j) * 1000 == Pow2(j) * (Pow2(k) * 1000)
      && (j > 0 ==> Pow2(j) * (Pow2(k) * 1000) > Pow2(k) * 1000)
  {
    var k := w.deliveries[h].attemptsForThisProvider;
    FailStep(w, h);
    var later := RetryRounds(w, h, j);
    assert later.deliveries[h].attemptsForThisProvider == k + j;
    FailStep(later, h);
    DelayScales(k, j);
  }

  /** The delay at counter `k + j` is `2^j` times the delay at counter `k`. */
  lemma DelayScales(k: nat, j: nat)
    ensures Pow2(k + j) * 1000 == Pow2(j) * (Pow2(k) * 1000)
    ensures j > 0 ==> Pow2(j) * (Pow2(k) * 1000) > Pow2(k) * 1000
  {
    var a, b := Pow2(k), Pow2(j);
    Pow2Add(k, j);
    Regroup(a, b);
    if j > 0 {
      Pow2StrictlyIncreasing(0, j);
      Grows(b, a * 1000);
    }
  }

  lemma Regroup(a: int, b: int)
    ensures (a * b) * 1000 == b * (a * 1000)
  {
  }

  lemma Grows(b: int, x: int)
    requires b >= 2 && x > 0
    ensures b * x > x
  {
  }
}

=== FILE: common.dfy ===
/** Small shared vocabulary: optional values and powers of two. */
module Common {

  /** A value that may be absent: the model's stand-in for `null` / `undefined`. */
  datatype Option<+T> = None | Some(value: T)

  /** 2 to the power `n`, as `Math.pow(2, n)` yields it for the non-negative counters it is used on. */
  function Pow2(n: nat): (r: nat)
    ensures r >= 1
  {
    if n == 0 then 1 else 2 * Pow2(n - 1)
  }

  /** Exponents compose additively: 2^(a+b) = 2^a * 2^b. */
  lemma {:induction false} Pow2Add(a: nat, b: nat)
    ensures Pow2(a + b) == Pow2(a) * Pow2(b)
    decreases a
  {
    if a > 0 {
      Pow2Add(a - 1, b);
      assert Pow2(a + b) == 2 * Pow2(a - 1 + b);
    }
  }

  /** A larger exponent gives a strictly larger power: each extra attempt backs off longer. */
  lemma {:induction false} Pow2StrictlyIncreasing(m: nat, n: nat)
    requires m < n
    ensures Pow2(m) < Pow2(n)
  {
    Pow2Add(m, n - m);
    assert Pow2(n - m) >= 2;
  }
}

=== FILE: deliveries.dfy ===
/**
  One outbound SMS and its working state (the source's `SmsDelivery`), together with the
  per-delivery invariant that bounds how often it can be sent.
*/
module Deliveries {
  import opened Common
  import opened Registry

  /**
    Delivery status. The status enum is declared in the provider base module, which is not
    part of this model; its values other than the four this component branches on or sets
    are represented by `Interim`.
  */
  datatype DeliveryStatus = NotCreated | Created | Delivered | Failed | Interim(name: string)

  /**
    What the model observes about one delivery; the source keeps none of it: the candidate
    list it started with, the number of `sendSms` calls made, and how often each completion
    callback has been invoked.
  */
  datatype Tally = Tally(initialProviders: seq<Provider>, sends: nat, failedCallbacks: nat, deliveredCallbacks: nat)

  /**
    The working state of one delivery. The two optional completion callbacks are
    represented by whether they were supplied; invoking one adds to the tally.
  */
  datatype Delivery = Delivery(
    countryCode: string,
    phoneNumber: string,
    message: string,
    providers: seq<Provider>,
    attemptsForThisProvider: nat,
    deliveryId: Option<string>,
    status: DeliveryStatus,
    hasFailedCallback: bool,
    hasBelievedDeliveredCallback: bool,
    tally: Tally)

  /** The record `startSendSms` creates: no attempts yet, no id, status `NotCreated`. */
  function NewDelivery(countryCode: string, phoneNumber: string, message: string, providers: seq<Provider>,
                       hasFailedCallback: bool, hasBelievedDeliveredCallback: bool): Delivery
  {
    Delivery(countryCode, phoneNumber, message, providers, 0, None, NotCreated,
             hasFailedCallback, hasBelievedDeliveredCallback, Tally(providers, 0, 0, 0))
  }

  /** `s.slice(1)`: drop the head; an empty sequence stays empty. */
  function Tail<T>(s: seq<T>): seq<T> {
    if |s| == 0 then [] else s[1..]
  }

  /** One if an optional callback is present (and so gets invoked), zero otherwise. */
  function Fired(present: bool): nat {
    if present then 1 else 0
  }

  /**
    The number of sends one provider can receive: the counter runs from 1 up to
    `maxProviderAttempts + 1` before the next pass drops the provider. A negative maximum
    still lets a provider that is reached by failover be sent to once.
  */
  function PerProvider(maxProviderAttempts: int): nat {
    if maxProviderAttempts < 0 then 1 else maxProviderAttempts + 1
  }

  /** The sends still possible: a full allowance for each provider left, less the current counter. */
  function Budget(d: Delivery, maxProviderAttempts: int): int {
    |d.providers| * PerProvider(maxProviderAttempts) - d.attemptsForThisProvider
  }

  /**
    The per-delivery invariant: the counter stays within one provider's allowance and is 0
    once no provider is left, the candidates are always a suffix of the initial list, and
    the sends made plus the sends still possible never exceed the allowance of the initial list.
  */
  ghost predicate DeliveryInv(d: Delivery, maxProviderAttempts: int) {
    var initial := d.tally.initialProviders;
    && d.attemptsForThisProvider <= PerProvider(maxProviderAttempts)
    && (|d.providers| == 0 ==> d.attemptsForThisProvider == 0)
    && |d.providers| <= |initial|
    && d.providers == initial[|initial| - |d.providers|..]
    && d.tally.sends + Budget(d, maxProviderAttempts) <= |initial| * PerProvider(maxProviderAttempts)
  }

  /** A fresh delivery satisfies the invariant. */
  lemma NewDeliveryInv(countryCode: string, phoneNumber: string, message: string, providers: seq<Provider>,
                       hasFailedCallback: bool, hasBelievedDeliveredCallback: bool, maxProviderAttempts: int)
    ensures DeliveryInv(NewDelivery(countryCode, phoneNumber, message, providers, hasFailedCallback, hasBelievedDeliveredCallback), maxProviderAttempts)
  {
  }

  /** The quantities the invariant speaks about are unchanged. */
  ghost predicate SameProgress(d: Delivery, d': Delivery) {
    && d'.providers == d.providers
    && d'.attemptsForThisProvider == d.attemptsForThisProvider
    && d'.tally.sends == d.tally.sends
    && d'.tally.initialProviders == d.tally.initialProviders
  }

  lemma SameProgressInv(d: Delivery, d': Delivery, maxProviderAttempts: int)
    requires DeliveryInv(d, maxProviderAttempts) && SameProgress(d, d')
    ensures DeliveryInv(d', maxProviderAttempts)
  {
  }

  /** The budget is never negative. */
  lemma BudgetNonNegative(d: Delivery, maxProviderAttempts: int)
    requires DeliveryInv(d, maxProviderAttempts)
    ensures Budget(d, maxProviderAttempts) >= 0
  {
    var n := PerProvider(maxProviderAttempts);
    if |d.providers| > 0 {
      assert |d.providers| * n == (|d.providers| - 1) * n + n;
      assert (|d.providers| - 1) * n >= 0;
    }
  }

  /**
    The attempt bound: one delivery makes at most `|initial providers| * PerProvider(maxProviderAttempts)`
    sends (`maxProviderAttempts + 1` per provider, or 1 when the maximum is negative), counting
    synchronous retries and receipt-driven resends alike.
  */
  lemma SendBound(d: Delivery, maxProviderAttempts: int)
    requires DeliveryInv(d, maxProviderAttempts)
    ensures d.tally.sends <= |d.tally.initialProviders| * PerProvider(maxProviderAttempts)
  {
    BudgetNonNegative(d, maxProviderAttempts);
  }
}

=== FILE: invariants.dfy ===
/**
  What holds in every world the module can reach: each delivery only ever loses its head
  provider, its counter stays within one provider's allowance, and it is sent at most
  `|initial candidates| * PerProvider(maxProviderAttempts)` times.
*/
module Invariants {
  import opened Common
  import opened Registry
  import opened Deliveries
  import opened Orchestrator

  /**
    The module invariant: handles are well formed, no two configured providers share a type
    (so the by-type object and the provider list agree), and every delivery keeps its budget.
  */
  ghost predicate Inv(w: World) {
    && WellFormed(w)
    && Unique(w.providers)
    && forall h :: h in w.deliveries ==> DeliveryInv(w.deliveries[h], w.config.maxProviderAttempts)
  }

  lemma InitInv(config: Config)
    ensures Inv(Init(config))
  {
  }

  /**
    How one step may change a delivery: the candidates stay or lose exactly their head,
    and only when the counter had exceeded the maximum; the counter otherwise grows by at
    most one; the head is dropped only with the counter reset, so it is at most 1 afterwards.
  */
  ghost predicate FailoverStep(d: Delivery, d': Delivery, maxProviderAttempts: int) {
    && d'.tally.initialProviders == d.tally.initialProviders
    && (d'.providers == d.providers || (d.attemptsForThisProvider > maxProviderAttempts && d'.providers == Tail(d.providers)))
    && (d'.providers == d.providers ==> d.attemptsForThisProvider <= d'.attemptsForThisProvider <= d.attemptsForThisProvider + 1)
    && (d'.providers != d.providers ==> d'.attemptsForThisProvider <= 1)
    && d.tally.sends <= d'.tally.sends <= d.tally.sends + 1
  }

  lemma PrefixStep(w: World, h: Handle)
    requires h in w.deliveries && DeliveryInv(w.deliveries[h], w.config.maxProviderAttempts)
    ensures var d' := AttemptPrefix(w, h).world.deliveries[h];
      && DeliveryInv(d', w.config.maxProviderAttempts)
      && FailoverStep(w.deliveries[h], d', w.config.maxProviderAttempts)
  {
    var max := w.config.maxProviderAttempts;
    var n := PerProvider(max);
    var d, d' := w.deliveries[h], AttemptPrefix(w, h).world.deliveries[h];
    var initial := d.tally.initialProviders;
    var p := |d.providers|;
    if d.attemptsForThisProvider > max && p > 0 {
      assert d'.providers == initial[|initial| - (p - 1)..];
      assert p * n == (p - 1) * n + n;
    }
  }

  /** Every transition keeps the invariant and moves each delivery by a failover step. */
  ghost predicate Preserved(w: World, w': World) {
    && Inv(w')
    && w.deliveries.Keys <= w'.deliveries.Keys
    && forall h :: h in w.deliveries ==>
         FailoverStep(w.deliveries[h], w'.deliveries[h], w.config.maxProviderAttempts)
  }

  lemma FailoverStepRefl(d: Delivery, max: int)
    ensures FailoverStep(d, d, max)
  {
  }

  lemma PreservedRefl(w: World, w': World)
    requires Inv(w) && w'.config == w.config && w'.deliveries == w.deliveries && WellFormed(w')
    requires Unique(w'.providers)
    ensures Preserved(w, w')
  {
    forall h | h in w.deliveries
      ensures FailoverStep(w.deliveries[h], w'.deliveries[h], w.config.maxProviderAttempts)
    {
      FailoverStepRefl(w.deliveries[h], w.config.maxProviderAttempts);
    }
  }

  lemma PrefixPreserves(w: World, h: Handle)
    requires Inv(w) && h in w.deliveries
    ensures Preserved(w, AttemptPrefix(w, h).world)
  {
    var w' := AttemptPrefix(w, h).world;
    AttemptPrefixWellFormed(w, h);
    PrefixStep(w, h);
    forall k | k in w'.deliveries
      ensures DeliveryInv(w'.deliveries[k], w'.config.maxProviderAttempts)
    {
      if k != h {
        assert w'.deliveries[k] == w.deliveries[k];
      }
    }
    forall k | k in w.deliveries
      ensures FailoverStep(w.deliveries[k], w'.deliveries[k], w.config.maxProviderAttempts)
    {
      if k != h {
        FailoverStepRefl(w.deliveries[k], w.config.maxProviderAttempts);
      }
    }
  }

  /** A step that changes delivery `h` at most outside the invariant's quantities preserves it. */
  lemma QuietStepPreserves(w: World, w': World, h: Handle)
    requires Inv(w) && WellFormed(w') && h in w.deliveries && Frame(w, w', h)
    requires SameProgress(w.deliveries[h], w'.deliveries[h])
    ensures Preserved(w, w')
  {
    forall k | k in w'.deliveries
      ensures DeliveryInv(w'.deliveries[k], w'.config.maxProviderAttempts)
    {
      SameProgressInv(w.deliveries[k], w'.deliveries[k], w.config.maxProviderAttempts);
    }
  }

  lemma CompleteSendPreserves(w: World, h: Handle, outcome: SendOutcome)
    requires Inv(w) && h in w.deliveries
    ensures Preserved(w, CompleteSend(w, h, outcome).world)
  {
    CompleteSendWellFormed(w, h, outcome);
    QuietStepPreserves(w, CompleteSend(w, h, outcome).world, h);
  }

  lemma FireExpiryPreserves(w: World, h: Handle, id: string)
    requires Inv(w) && h in w.deliveries
    ensures Preserved(w, FireExpiry(w, h, id).world)
  {
    FireExpiryWellFormed(w, h, id);
    QuietStepPreserves(w, FireExpiry(w, h, id).world, h);
  }

  lemma ReportPreserves(w: World, id: string, status: DeliveryStatus)
    requires Inv(w)
    ensures Preserved(w, ReceivedDeliveryReport(w, id, status).world)
  {
    ReportWellFormed(w, id, status);
    if id in w.tracker {
      QuietStepPreserves(w, ReceivedDeliveryReport(w, id, status).world, w.tracker[id]);
    }
  }

  lemma StartPreserves(w: World, phoneNumber: string, message: string, regionCode: Option<string>,
                       hasFailedCallback: bool, hasBelievedDeliveredCallback: bool)
    requires Inv(w)
    ensures Preserved(w, StartSendSms(w, phoneNumber, message, regionCode, hasFailedCallback, hasBelievedDeliveredCallback).world)
  {
    var s := StartSendSms(w, phoneNumber, message, regionCode, hasFailedCallback, hasBelievedDeliveredCallback);
    if s.world == w {
      PreservedRefl(w, w);
    } else {
      StartCreatesPreserves(w, phoneNumber, message, regionCode, hasFailedCallback, hasBelievedDeliveredCallback);
    }
  }

  lemma StartCreatesPreserves(w: World, phoneNumber: string, message: string, regionCode: Option<string>,
                              hasFailedCallback: bool, hasBelievedDeliveredCallback: bool)
    requires Inv(w)
    requires StartSendSms(w, phoneNumber, message, regionCode, hasFailedCallback, hasBelievedDeliveredCallback).world != w
    ensures Preserved(w, StartSendSms(w, phoneNumber, message, regionCode, hasFailedCallback, hasBelievedDeliveredCallback).world)
  {
    var countryCode := regionCode.value;
    var candidates := SmsProvidersFor(w.providers, OverrideList(w.config, countryCode), countryCode, phoneNumber);
    var d := NewDelivery(countryCode, phoneNumber, message, candidates, hasFailedCallback, hasBelievedDeliveredCallback);
    var w1 := w.(deliveries := w.deliveries[w.nextHandle := d], nextHandle := w.nextHandle + 1);
    assert StartSendSms(w, phoneNumber, message, regionCode, hasFailedCallback, hasBelievedDeliveredCallback) == AttemptPrefix(w1, w.nextHandle);
    NewDeliveryInv(countryCode, phoneNumber, message, candidates, hasFailedCallback, hasBelievedDeliveredCallback, w.config.maxProviderAttempts);
    AddDeliveryPreserves(w, d);
  }

  lemma AddDeliveryPreserves(w: World, d: Delivery)
    requires Inv(w)
    requires DeliveryInv(d, w.config.maxProviderAttempts)
    ensures var w1 := w.(deliveries := w.deliveries[w.nextHandle := d], nextHandle := w.nextHandle + 1);
      Preserved(w, AttemptPrefix(w1, w.nextHandle).world)
  {
    var w1 := w.(deliveries := w.deliveries[w.nextHandle := d], nextHandle := w.nextHandle + 1);
    assert Inv(w1);
    PrefixPreserves(w1, w.nextHandle);
    var w' := AttemptPrefix(w1, w.nextHandle).world;
    forall k | k in w.deliveries
      ensures FailoverStep(w.deliveries[k], w'.deliveries[k], w.config.maxProviderAttempts)
    {
      assert w1.deliveries[k] == w.deliveries[k];
    }
  }

  lemma FireEventPreserves(w: World, e: Event, outcome: SendOutcome)
    requires Inv(w) && e in w.pending
    ensures Preserved(w, FireEvent(w, e, outcome).world)
  {
    var w0 := w.(pending := w.pending - multiset{e});
    assert Inv(w0);
    match e
    case SendCompletion(h, _) => CompleteSendPreserves(w0, h, outcome);
    case BackoffRetry(h, _) => PrefixPreserves(w0, h);
    case Resend(h, _) => PrefixPreserves(w0, h);
    case Expiry(h, id, _) => FireExpiryPreserves(w0, h, id);
  }

  /**
    Every step of the module keeps the invariant, and moves every existing delivery by a
    failover step: candidates only lose their head, never grow or reorder.
  */
  lemma NextPreserves(w: World, a: Action)
    requires Inv(w)
    ensures Preserved(w, Next(w, a).world)
  {
    match a
    case Initialize(env, make) =>
      ConfigureSpec(w.providers, env, make);
      PreservedRefl(w, Next(w, a).world);
    case Start(phone, message, region, failedCb, deliveredCb) =>
      StartPreserves(w, phone, message, region, failedCb, deliveredCb);
    case Report(id, status) =>
      ReportPreserves(w, id, status);
    case Fire(e, outcome) =>
      if e in w.pending {
        FireEventPreserves(w, e, outcome);
      } else {
        PreservedRefl(w, Next(w, a).world);
      }
  }

  /** The invariant holds after any sequence of actions. */
  lemma {:induction false} RunPreserves(w: World, actions: seq<Action>)
    requires Inv(w)
    ensures Inv(Run(w, actions))
    decreases |actions|
  {
    if |actions| > 0 {
      NextPreserves(w, actions[0]);
      RunPreserves(Next(w, actions[0]).world, actions[1..]);
    }
  }

  /**
    In every reachable world no two configured providers share a type, so the lookup by
    type name returns the one provider registered under that name.
  */
  lemma ReachableRegistryUnique(config: Config, actions: seq<Action>)
    ensures Unique(Run(Init(config), actions).providers)
  {
    InitInv(config);
    RunPreserves(Init(config), actions);
  }

  /**
    In every reachable world, each delivery has made at most `PerProvider(maxProviderAttempts)`
    sends per initial candidate provider, and its candidates are a suffix of the initial ones.
  */
  lemma ReachableSendBound(config: Config, actions: seq<Action>, h: Handle)
    ensures var w := Run(Init(config), actions);
      h in w.deliveries ==>
        var d := w.deliveries[h];
        && d.tally.sends <= |d.tally.initialProviders| * PerProvider(config.maxProviderAttempts)
        && d.attemptsForThisProvider <= PerProvider(config.maxProviderAttempts)
        && |d.providers| <= |d.tally.initialProviders|
        && d.providers == d.tally.initialProviders[|d.tally.initialProviders| - |d.providers|..]
  {
    InitInv(config);
    RunPreserves(Init(config), actions);
    var w := Run(Init(config), actions);
    if h in w.deliveries {
      SendBound(w.deliveries[h], config.maxProviderAttempts);
    }
  }
}

=== FILE: orchestrator.dfy ===
/**
  The delivery state machine of the SMS component: `startSendSms`, the two halves of
  `attemptToSendSms` around its `await`, the receipt-timeout cleanup and
  `receivedDeliveryReport`, as pure transitions over a world state.

  JavaScript runs `attemptToSendSms` from its first line up to the `await` on the provider's
  `sendSms` without interruption; that prefix is one transition. Everything that happens
  later (the send resolving or failing, a backoff sleep ending, a timer firing) is a pending
  event, and any pending event may fire next: no order among timers is assumed.
*/
module Orchestrator {
  import opened Common
  import opened Registry
  import opened Deliveries

  /** Identifies one delivery record; the source shares the record object itself. */
  type Handle = nat

  /** Values read from the environment once, when the module is loaded. */
  datatype Config = Config(
    maxProviderAttempts: int,             // MAX_PROVIDER_RETRIES, 3 by default
    receiptTimeoutMs: int,                // TIMEOUT_CLEANUP_NO_RECEIPT_MIN minutes, 10 by default
    regionOverrides: map<string, string>) // SMS_PROVIDERS_<countryCode>

  /** The value of `SMS_PROVIDERS_<countryCode>`, or "" when it is not set. */
  function OverrideList(config: Config, countryCode: string): string {
    if countryCode in config.regionOverrides then config.regionOverrides[countryCode] else ""
  }

  /** Work the event loop still owes a delivery. */
  datatype Event =
    | SendCompletion(handle: Handle, via: ProviderType)  // the awaited `sendSms` settles
    | BackoffRetry(handle: Handle, delayMs: nat)         // the sleep after a failed send ends
    | Resend(handle: Handle, delayMs: nat)               // the resend timer after a `Failed` receipt
    | Expiry(handle: Handle, id: string, timeoutMs: int) // the cleanup timer for a tracked id

  /** How a provider's `sendSms` settled: with a provider-issued id, or by throwing. */
  datatype SendOutcome = Sent(id: string) | SendFailed

  datatype Failure =
    | Misconfigured(error: ConfigError)  // initializeSmsProviders throws
    | CouldNotParseNumber                // no region code for the number
    | NoProvidersAvailable               // no candidate for the region
    | AllProvidersFailed                 // every candidate was dropped
    | NoCurrentProvider                  // `providers[0].type` read on an empty list: a TypeError

  /** What the step hands back to whoever awaits it. */
  datatype Reply =
    | Quiet                    // nothing is returned or raised
    | Suspended                // the attempt is waiting at an `await`
    | Returned(kind: ProviderType)
    | Raised(failure: Failure)

  /**
    The module state: the configured providers, every delivery created so far, the tracker
    `ongoingDeliveries` from provider-issued id to delivery, and the pending events.
  */
  datatype World = World(
    config: Config,
    providers: seq<Provider>,
    deliveries: map<Handle, Delivery>,
    tracker: map<string, Handle>,
    pending: multiset<Event>,
    nextHandle: Handle)

  datatype Step = Step(world: World, reply: Reply)

  /**
    The receipt handler writes `ongoingDeliveries.deliveryId = null`, which sets the property
    literally named "deliveryId". A null entry is treated like a missing one by every lookup,
    so the model removes that key.
  */
  const FieldKey: string := "deliveryId"

  /** The state before any configuration or send. */
  function Init(config: Config): World {
    World(config, [], map[], map[], multiset{}, 0)
  }

  /** Every handle the tracker or a pending event refers to names a created delivery. */
  ghost predicate WellFormed(w: World) {
    && (forall h :: h in w.deliveries ==> h < w.nextHandle)
    && (forall id :: id in w.tracker ==> w.tracker[id] in w.deliveries)
    && (forall e :: e in w.pending ==> e.handle in w.deliveries)
  }

  /** `w'` differs from `w` at most in delivery `h`, the tracker and the pending events. */
  ghost predicate Frame(w: World, w': World, h: Handle) {
    && w'.config == w.config
    && w'.providers == w.providers
    && w'.nextHandle == w.nextHandle
    && w'.deliveries.Keys == w.deliveries.Keys
    && (forall k :: k in w.deliveries && k != h ==> w'.deliveries[k] == w.deliveries[k])
  }

  /** `d'` is `d` except possibly for the fields the attempt prefix writes. */
  ghost predicate PrefixFields(d: Delivery, d': Delivery) {
    && d'.(providers := d.providers, attemptsForThisProvider := d.attemptsForThisProvider,
           deliveryId := d.deliveryId, tally := d.tally) == d
    && d'.tally.initialProviders == d.tally.initialProviders
    && d'.tally.deliveredCallbacks == d.tally.deliveredCallbacks
  }

  /** Whether the attempt prefix puts a previous id back into the tracker (`if (delivery.deliveryId)`). */
  predicate Retracks(d: Delivery) {
    d.deliveryId.Some? && d.deliveryId.value != ""
  }

  /**
    The synchronous prefix of `attemptToSendSms`: put a previous id back into the tracker,
    drop the head provider once its counter exceeds the maximum, then either give up (no
    provider left: invoke the failure callback and raise) or count the attempt and call the
    head provider's `sendSms`, whose settling becomes a pending event.
  */
  function AttemptPrefix(w: World, h: Handle): (s: Step)
    requires h in w.deliveries
    ensures Frame(w, s.world, h)
    ensures var d, d' := w.deliveries[h], s.world.deliveries[h];
      && PrefixFields(d, d')
      // failover: the head is dropped exactly when the counter exceeds the maximum
      && (d.attemptsForThisProvider > w.config.maxProviderAttempts ==> d'.providers == Tail(d.providers))
      && (d.attemptsForThisProvider <= w.config.maxProviderAttempts ==> d'.providers == d.providers)
      // a send happens exactly when a provider is left
      && (s.reply == Suspended <==> |d'.providers| > 0)
      && (s.reply == Suspended ==>
            && 1 <= d'.attemptsForThisProvider <= PerProvider(w.config.maxProviderAttempts)
            && d'.attemptsForThisProvider ==
                 (if d.attemptsForThisProvider > w.config.maxProviderAttempts then 1 else d.attemptsForThisProvider + 1)
            && d'.tally.sends == d.tally.sends + 1
            && d'.tally.failedCallbacks == d.tally.failedCallbacks
            && s.world.pending == w.pending + multiset{SendCompletion(h, d'.providers[0].kind)})
      // final failure: the callback fires and the attempt raises, with no send
      && (s.reply != Suspended ==>
            && s.reply == Raised(AllProvidersFailed)
            && d'.attemptsForThisProvider ==
                 (if d.attemptsForThisProvider > w.config.maxProviderAttempts then 0 else d.attemptsForThisProvider)
            && d'.tally.sends == d.tally.sends
            && d'.tally.failedCallbacks == d.tally.failedCallbacks + Fired(d.hasFailedCallback)
            && s.world.pending == w.pending)
      // the id of an earlier tracked send is put back into the tracker and cleared
      && (Retracks(d) ==> s.world.tracker == w.tracker[d.deliveryId.value := h] && d'.deliveryId == None)
      && (!Retracks(d) ==> s.world.tracker == w.tracker && d'.deliveryId == d.deliveryId)
  {
    var d := w.deliveries[h];
    var tracker := if Retracks(d) then w.tracker[d.deliveryId.value := h] else w.tracker;
    var d1 := if Retracks(d) then d.(deliveryId := None) else d;
    var d2 :=
      if d1.attemptsForThisProvider > w.config.maxProviderAttempts
      then d1.(providers := Tail(d1.providers), attemptsForThisProvider := 0)
      else d1;
    if |d2.providers| == 0 then
      var d3 := d2.(tally := d2.tally.(failedCallbacks := d2.tally.failedCallbacks + Fired(d2.hasFailedCallback)));
      Step(w.(deliveries := w.deliveries[h := d3], tracker := tracker), Raised(AllProvidersFailed))
    else
      var d3 := d2.(attemptsForThisProvider := d2.attemptsForThisProvider + 1,
                    tally := d2.tally.(sends := d2.tally.sends + 1));
      Step(w.(deliveries := w.deliveries[h := d3], tracker := tracker,
              pending := w.pending + multiset{SendCompletion(h, d3.providers[0].kind)}),
           Suspended)
  }

  /**
    The rest of `attemptToSendSms`, once `sendSms` has settled. It reads `providers[0]`
    afresh, which may no longer be the provider that sent. On success it returns that
    provider's type and, if the provider sends receipts, tracks the delivery under the new
    id and arms the cleanup timer. On failure it sleeps `2^attempts * 1000` ms and re-enters.
  */
  function CompleteSend(w: World, h: Handle, outcome: SendOutcome): (s: Step)
    requires h in w.deliveries
    ensures var d := w.deliveries[h];
      && (|d.providers| == 0 ==> s == Step(w, Raised(NoCurrentProvider)))
      && (|d.providers| > 0 && outcome.SendFailed? ==>
            s == Step(w.(pending := w.pending + multiset{BackoffRetry(h, Pow2(d.attemptsForThisProvider) * 1000)}), Suspended))
      && (|d.providers| > 0 && outcome.Sent? ==>
            && s.reply == Returned(d.providers[0].kind)
            && (!d.providers[0].caps.supportsDeliveryStatus ==> s.world == w)
            && (d.providers[0].caps.supportsDeliveryStatus ==>
                  && Frame(w, s.world, h)
                  && s.world.tracker == w.tracker[outcome.id := h]
                  && s.world.deliveries[h] == d.(deliveryId := Some(outcome.id), status := Created)
                  && s.world.pending == w.pending + multiset{Expiry(h, outcome.id, w.config.receiptTimeoutMs)}))
  {
    var d := w.deliveries[h];
    if |d.providers| == 0 then Step(w, Raised(NoCurrentProvider))
    else match outcome
      case SendFailed =>
        Step(w.(pending := w.pending + multiset{BackoffRetry(h, Pow2(d.attemptsForThisProvider) * 1000)}), Suspended)
      case Sent(id) =>
        var head := d.providers[0];
        if head.caps.supportsDeliveryStatus then
          Step(w.(tracker := w.tracker[id := h],
                  deliveries := w.deliveries[h := d.(deliveryId := Some(id), status := Created)],
                  pending := w.pending + multiset{Expiry(h, id, w.config.receiptTimeoutMs)}),
               Returned(head.kind))
        else Step(w, Returned(head.kind))
  }

  /**
    The cleanup timer armed for `id`: it acts only while the delivery still holds that id,
    and then forgets the id, invokes the believed-delivered callback and clears the id.
  */
  function FireExpiry(w: World, h: Handle, id: string): (s: Step)
    requires h in w.deliveries
    ensures s.reply == Quiet
    ensures Frame(w, s.world, h) && s.world.pending == w.pending
    ensures var d := w.deliveries[h];
      && (d.deliveryId != Some(id) ==> s.world == w)
      && (d.deliveryId == Some(id) ==>
            && s.world.tracker == w.tracker - {id}
            && s.world.deliveries[h].deliveryId == None
            && s.world.deliveries[h].tally.deliveredCallbacks == d.tally.deliveredCallbacks + Fired(d.hasBelievedDeliveredCallback)
            && s.world.deliveries[h].(deliveryId := d.deliveryId, tally := d.tally) == d
            && s.world.deliveries[h].tally.(deliveredCallbacks := d.tally.deliveredCallbacks) == d.tally)
  {
    var d := w.deliveries[h];
    if d.deliveryId == Some(id) then
      var d' := d.(deliveryId := None,
                   tally := d.tally.(deliveredCallbacks := d.tally.deliveredCallbacks + Fired(d.hasBelievedDeliveredCallback)));
      Step(w.(tracker := w.tracker - {id}, deliveries := w.deliveries[h := d']), Quiet)
    else Step(w, Quiet)
  }

  /**
    `receivedDeliveryReport(id, status)`: an untracked id is ignored. Otherwise the status
    is recorded; `Delivered` forgets the id and invokes the believed-delivered callback;
    `Failed` forgets the id and schedules a resend after `2^attempts * 3000` ms, keeping the
    candidates and the counter. Neither clears the delivery's own `deliveryId`: the handler
    clears the tracker's literal "deliveryId" entry instead.
  */
  function ReceivedDeliveryReport(w: World, id: string, status: DeliveryStatus): (s: Step)
    requires WellFormed(w)
    ensures s.world.deliveries.Keys == w.deliveries.Keys
    ensures id !in w.tracker ==> s == Step(w, Quiet)
    ensures id in w.tracker && |w.deliveries[w.tracker[id]].providers| == 0 ==> s == Step(w, Raised(NoCurrentProvider))
    ensures id in w.tracker && |w.deliveries[w.tracker[id]].providers| > 0 ==>
      var h := w.tracker[id];
      var d, d' := w.deliveries[h], s.world.deliveries[h];
      && s.reply == Quiet
      && Frame(w, s.world, h)
      && d' == d.(status := status, tally := d'.tally)
      && d'.tally.(deliveredCallbacks := d.tally.deliveredCallbacks) == d.tally
      && (status == Delivered ==>
            && s.world.tracker == w.tracker - {id, FieldKey}
            && d'.tally.deliveredCallbacks == d.tally.deliveredCallbacks + Fired(d.hasBelievedDeliveredCallback)
            && s.world.pending == w.pending)
      && (status == Failed ==>
            && s.world.tracker == w.tracker - {id, FieldKey}
            && d'.tally == d.tally
            && s.world.pending == w.pending + multiset{Resend(h, Pow2(d.attemptsForThisProvider) * 3000)})
      && (status != Delivered && status != Failed ==>
            s.world.tracker == w.tracker && s.world.pending == w.pending && d'.tally == d.tally)
  {
    if id !in w.tracker then Step(w, Quiet)
    else
      var h := w.tracker[id];
      var d := w.deliveries[h];
      if |d.providers| == 0 then Step(w, Raised(NoCurrentProvider))
      else
        var d1 := d.(status := status);
        match status
        case Delivered =>
          var d2 := d1.(tally := d1.tally.(deliveredCallbacks := d1.tally.deliveredCallbacks + Fired(d1.hasBelievedDeliveredCallback)));
          Step(w.(tracker := w.tracker - {id} - {FieldKey}, deliveries := w.deliveries[h := d2]), Quiet)
        case Failed =>
          Step(w.(tracker := w.tracker - {id} - {FieldKey}, deliveries := w.deliveries[h := d1],
                  pending := w.pending + multiset{Resend(h, Pow2(d.attemptsForThisProvider) * 3000)}),
               Quiet)
        case _ =>
          Step(w.(deliveries := w.deliveries[h := d1]), Quiet)
  }

  /** A delivery for this message that started from `candidates` and has no id yet. */
  ghost predicate FreshDelivery(d: Delivery, candidates: seq<Provider>, countryCode: string, phoneNumber: string, message: string) {
    && d.tally.initialProviders == candidates
    && d.countryCode == countryCode && d.phoneNumber == phoneNumber && d.message == message
    && d.status == NotCreated && d.deliveryId == None
  }

  /**
    `startSendSms`: fail without creating anything when the number yields no region code or
    the region has no candidate provider; otherwise create the delivery and run the attempt
    prefix on it. `regionCode` is what the phone-number library makes of the number.
  */
  function StartSendSms(w: World, phoneNumber: string, message: string, regionCode: Option<string>,
                        hasFailedCallback: bool, hasBelievedDeliveredCallback: bool): (s: Step)
    requires WellFormed(w)
    ensures regionCode.None? || regionCode == Some("") ==> s == Step(w, Raised(CouldNotParseNumber))
    ensures regionCode.Some? && regionCode.value != "" ==>
      var candidates := SmsProvidersFor(w.providers, OverrideList(w.config, regionCode.value), regionCode.value, phoneNumber);
      && (|candidates| == 0 ==> s == Step(w, Raised(NoProvidersAvailable)))
      && (|candidates| > 0 ==>
            && w.nextHandle !in w.deliveries
            && s.world.deliveries.Keys == w.deliveries.Keys + {w.nextHandle}
            && s.world.nextHandle == w.nextHandle + 1
            && s.world.tracker == w.tracker
            && (forall k :: k in w.deliveries ==> s.world.deliveries[k] == w.deliveries[k])
            && FreshDelivery(s.world.deliveries[w.nextHandle], candidates, regionCode.value, phoneNumber, message)
            && (w.config.maxProviderAttempts >= 0 ==>
                  && s.reply == Suspended
                  && s.world.deliveries[w.nextHandle].providers == candidates
                  && s.world.deliveries[w.nextHandle].attemptsForThisProvider == 1
                  && s.world.deliveries[w.nextHandle].tally.sends == 1
                  && s.world.pending == w.pending + multiset{SendCompletion(w.nextHandle, candidates[0].kind)}))
  {
    if regionCode.None? || regionCode.value == "" then Step(w, Raised(CouldNotParseNumber))
    else
      var countryCode := regionCode.value;
      var candidates := SmsProvidersFor(w.providers, OverrideList(w.config, countryCode), countryCode, phoneNumber);
      if |candidates| == 0 then Step(w, Raised(NoProvidersAvailable))
      else
        var h := w.nextHandle;
        var d := NewDelivery(countryCode, phoneNumber, message, candidates, hasFailedCallback, hasBelievedDeliveredCallback);
        var w1 := w.(deliveries := w.deliveries[h := d], nextHandle := h + 1);
        FirstAttempt(w1, h);
        AttemptPrefix(w1, h)
  }

  /** The first attempt on a fresh delivery sends to the first candidate when the maximum is not negative. */
  lemma FirstAttempt(w: World, h: Handle)
    requires h in w.deliveries
    requires var d := w.deliveries[h];
      d.attemptsForThisProvider == 0 && d.tally.sends == 0 && d.deliveryId == None && |d.providers| > 0
    ensures var d, s := w.deliveries[h], AttemptPrefix(w, h);
      && s.world.tracker == w.tracker
      && s.world.deliveries[h].deliveryId == None
      && (w.config.maxProviderAttempts >= 0 ==>
            && s.reply == Suspended
            && s.world.deliveries[h].providers == d.providers
            && s.world.deliveries[h].attemptsForThisProvider == 1
            && s.world.deliveries[h].tally.sends == 1
            && s.world.pending == w.pending + multiset{SendCompletion(h, d.providers[0].kind)})
  {
  }

  lemma AttemptPrefixWellFormed(w: World, h: Handle)
    requires WellFormed(w) && h in w.deliveries
    ensures WellFormed(AttemptPrefix(w, h).world)
  {
  }

  lemma CompleteSendWellFormed(w: World, h: Handle, outcome: SendOutcome)
    requires WellFormed(w) && h in w.deliveries
    ensures WellFormed(CompleteSend(w, h, outcome).world)
  {
  }

  lemma FireExpiryWellFormed(w: World, h: Handle, id: string)
    requires WellFormed(w) && h in w.deliveries
    ensures WellFormed(FireExpiry(w, h, id).world)
  {
  }

  lemma ReportWellFormed(w: World, id: string, status: DeliveryStatus)
    requires WellFormed(w)
    ensures WellFormed(ReceivedDeliveryReport(w, id, status).world)
  {
  }

  lemma StartWellFormed(w: World, phoneNumber: string, message: string, regionCode: Option<string>,
                        hasFailedCallback: bool, hasBelievedDeliveredCallback: bool)
    requires WellFormed(w)
    ensures WellFormed(StartSendSms(w, phoneNumber, message, regionCode, hasFailedCallback, hasBelievedDeliveredCallback).world)
  {
    if regionCode.Some? && regionCode.value != "" {
      var countryCode := regionCode.value;
      var candidates := SmsProvidersFor(w.providers, OverrideList(w.config, countryCode), countryCode, phoneNumber);
      if |candidates| > 0 {
        var h := w.nextHandle;
        var d := NewDelivery(countryCode, phoneNumber, message, candidates, hasFailedCallback, hasBelievedDeliveredCallback);
        var w1 := w.(deliveries := w.deliveries[h := d], nextHandle := h + 1);
        assert StartSendSms(w, phoneNumber, message, regionCode, hasFailedCallback, hasBelievedDeliveredCallback) == AttemptPrefix(w1, h);
        AddDeliveryWellFormed(w, d);
      }
    }
  }

  lemma AddDeliveryWellFormed(w: World, d: Delivery)
    requires WellFormed(w)
    ensures var w1 := w.(deliveries := w.deliveries[w.nextHandle := d], nextHandle := w.nextHandle + 1);
      WellFormed(AttemptPrefix(w1, w.nextHandle).world)
  {
    var w1 := w.(deliveries := w.deliveries[w.nextHandle := d], nextHandle := w.nextHandle + 1);
    assert WellFormed(w1);
    AttemptPrefixWellFormed(w1, w.nextHandle);
  }

  lemma FireEventWellFormed(w: World, e: Event, outcome: SendOutcome)
    requires WellFormed(w) && e in w.pending
    ensures WellFormed(FireEvent(w, e, outcome).world)
  {
    var w0 := w.(pending := w.pending - multiset{e});
    assert WellFormed(w0);
    match e
    case SendCompletion(h, _) => CompleteSendWellFormed(w0, h, outcome);
    case BackoffRetry(h, _) => AttemptPrefixWellFormed(w0, h);
    case Resend(h, _) => AttemptPrefixWellFormed(w0, h);
    case Expiry(h, id, _) => FireExpiryWellFormed(w0, h, id);
  }

  /** Something that can happen next: a call into the module, or a pending event firing. */
  datatype Action =
    | Initialize(smsProvidersEnv: string, make: ProviderType -> Capabilities)
    | Start(phoneNumber: string, message: string, regionCode: Option<string>,
            hasFailedCallback: bool, hasBelievedDeliveredCallback: bool)
    | Report(id: string, status: DeliveryStatus)
    | Fire(event: Event, outcome: SendOutcome)

  /** Fire one pending event; `outcome` is how the send settled, for a send completion. */
  function FireEvent(w: World, e: Event, outcome: SendOutcome): (s: Step)
    requires WellFormed(w)
    requires e in w.pending
  {
    var w0 := w.(pending := w.pending - multiset{e});
    match e
    case SendCompletion(h, _) => CompleteSend(w0, h, outcome)
    case BackoffRetry(h, _) => AttemptPrefix(w0, h)
    case Resend(h, _) => AttemptPrefix(w0, h)
    case Expiry(h, id, _) => FireExpiry(w0, h, id)
  }

  /** One step of the whole module; firing an event that is not pending changes nothing. */
  function Next(w: World, a: Action): (s: Step)
    requires WellFormed(w)
    ensures WellFormed(s.world)
    ensures s.world.config == w.config
    ensures w.deliveries.Keys <= s.world.deliveries.Keys
  {
    match a
    case Initialize(env, make) =>
      var c := Configure(w.providers, env, make);
      Step(w.(providers := c.providers), if c.error.Some? then Raised(Misconfigured(c.error.value)) else Quiet)
    case Start(phone, message, region, failedCb, deliveredCb) =>
      StartWellFormed(w, phone, message, region, failedCb, deliveredCb);
      StartSendSms(w, phone, message, region, failedCb, deliveredCb)
    case Report(id, status) =>
      ReportWellFormed(w, id, status);
      ReceivedDeliveryReport(w, id, status)
    case Fire(e, outcome) =>
      if e in w.pending then
        FireEventWellFormed(w, e, outcome);
        FireEvent(w, e, outcome)
      else Step(w, Quiet)
  }

  /** The world after a sequence of actions. */
  function Run(w: World, actions: seq<Action>): (w': World)
    requires WellFormed(w)
    ensures WellFormed(w')
    ensures w'.config == w.config
    decreases |actions|
  {
    if |actions| == 0 then w else Run(Next(w, actions[0]).world, actions[1..])
  }
}

=== FILE: quirks.dfy ===
/**
  Behaviour of the source that differs from what its comments and structure suggest,
  stated as lemmas about the model (which follows the code as written).
*/
module Quirks {
  import opened Common
  import Text
  import opened Registry
  import opened Deliveries
  import opened Orchestrator

  /** No provider type is named by the empty string. */
  lemma EmptyNameUnknown(providers: seq<Provider>)
    ensures SmsProviderOfType(providers, "") == None
  {
  }

  /**
    The override list is always split into at least one name, so the fallback to all
    configured providers never applies: the candidates are exactly the servable providers
    named in the override list.
  */
  lemma OverrideFallbackUnreachable(providers: seq<Provider>, overrideList: string, countryCode: string, phoneNumber: string)
    ensures |Text.Split(overrideList, ',')| > 0
    ensures SmsProvidersFor(providers, overrideList, countryCode, phoneNumber)
         == Serving(Resolve(providers, Text.Split(overrideList, ',')), countryCode, phoneNumber)
  {
  }

  /**
    With no override configured for the region, the list is "" and splits into the single
    name "", which resolves to no provider: no region without an override has a candidate.
  */
  lemma NoOverrideNoCandidates(providers: seq<Provider>, countryCode: string, phoneNumber: string)
    ensures SmsProvidersFor(providers, "", countryCode, phoneNumber) == []
  {
    EmptyNameUnknown(providers);
    assert Text.Split("", ',') == [""];
    assert Resolve(providers, [""]) == [None];
    assert Serving([None], countryCode, phoneNumber) == Serving([None][1..], countryCode, phoneNumber);
  }

  /** Hence `startSendSms` raises "No SMS providers available" for every region without an override. */
  lemma NoOverrideRejectsSend(w: World, phoneNumber: string, message: string, countryCode: string,
                              hasFailedCallback: bool, hasBelievedDeliveredCallback: bool)
    requires WellFormed(w)
    requires countryCode != "" && countryCode !in w.config.regionOverrides
    ensures StartSendSms(w, phoneNumber, message, Some(countryCode), hasFailedCallback, hasBelievedDeliveredCallback)
         == Step(w, Raised(NoProvidersAvailable))
  {
    NoOverrideNoCandidates(w.providers, countryCode, phoneNumber);
  }

  /**
    The empty-list check in configuration is dead: a `SMS_PROVIDERS` value that reaches
    `split` as "" fails as the unknown type name "" and configures nothing.
  */
  lemma EmptyProviderListIsUnknownType(providers: seq<Provider>, make: ProviderType -> Capabilities)
    ensures Configure(providers, "", make) == Configured(providers, Some(UnknownType("")))
  {
    EmptyNameUnknown(providers);
    assert Text.Split("", ',') == [""];
  }

  /**
    A `Delivered` receipt forgets the id in the tracker but leaves it on the delivery, so the
    cleanup timer armed for that id still matches and invokes the believed-delivered
    callback a second time.
  */
  lemma DeliveredThenExpiryFiresTwice(w: World, id: string, timeoutMs: int)
    requires WellFormed(w)
    requires id in w.tracker
    requires var d := w.deliveries[w.tracker[id]];
      d.deliveryId == Some(id) && |d.providers| > 0 && d.hasBelievedDeliveredCallback
    requires Expiry(w.tracker[id], id, timeoutMs) in w.pending
    ensures var h := w.tracker[id];
      var w1 := Next(w, Report(id, Delivered)).world;
      var w2 := Next(w1, Fire(Expiry(h, id, timeoutMs), SendFailed)).world;
      && id !in w1.tracker
      && w2.deliveries[h].tally.deliveredCallbacks == w.deliveries[h].tally.deliveredCallbacks + 2
  {
    var h := w.tracker[id];
    var w1 := Next(w, Report(id, Delivered)).world;
    assert w1.deliveries[h].deliveryId == Some(id);
    assert Expiry(h, id, timeoutMs) in w1.pending;
  }

  /** A second `Delivered` receipt for the same id changes nothing. */
  lemma DeliveredTwiceIsIgnored(w: World, id: string)
    requires WellFormed(w)
    ensures var w1 := Next(w, Report(id, Delivered)).world;
      Next(w1, Report(id, Delivered)).world == w1
  {
  }

  /**
    A `Failed` receipt forgets the id but leaves it on the delivery; the resend then puts
    the old id back into the tracker before sending again. The old id's cleanup timer no
    longer matches, so the entry stays until another receipt for the old id arrives.
  */
  lemma FailedReceiptRetracksOldId(w: World, id: string, outcome: SendOutcome)
    requires WellFormed(w)
    requires id in w.tracker && id != ""
    requires var d := w.deliveries[w.tracker[id]];
      d.deliveryId == Some(id) && |d.providers| > 0
    ensures var h := w.tracker[id];
      var d := w.deliveries[h];
      var resend := Resend(h, Pow2(d.attemptsForThisProvider) * 3000);
      var w1 := Next(w, Report(id, Failed)).world;
      var w2 := Next(w1, Fire(resend, outcome)).world;
      && id !in w1.tracker
      && resend in w1.pending
      && id in w2.tracker && w2.tracker[id] == h
      && w2.deliveries[h].deliveryId == None
      && FireExpiry(w2, h, id).world == w2
  {
    var h := w.tracker[id];
    var w1 := Next(w, Report(id, Failed)).world;
    assert w1.deliveries[h].deliveryId == Some(id);
    assert Retracks(w1.deliveries[h]);
  }

  /**
    The attempt prefix drops the head only once the counter exceeds the maximum, so a
    provider whose sends all fail is sent to `maxProviderAttempts + 1` times: at counter
    values 1 to `maxProviderAttempts + 1`.
  */
  lemma OneExtraTryPerProvider(w: World, h: Handle)
    requires h in w.deliveries && w.config.maxProviderAttempts >= 0
    requires |w.deliveries[h].providers| > 0
    ensures var d, s := w.deliveries[h], AttemptPrefix(w, h);
      && (d.attemptsForThisProvider == w.config.maxProviderAttempts ==>
            s.world.deliveries[h].providers == d.providers && s.world.deliveries[h].attemptsForThisProvider == w.config.maxProviderAttempts + 1)
      && (d.attemptsForThisProvider == w.config.maxProviderAttempts + 1 ==>
            s.world.deliveries[h].providers == d.providers[1..])
  {
  }

  /**
    Two attempt chains can run on one delivery: a resend scheduled by a `Failed` receipt and
    a send still awaiting its result. If the resend drops the head while the other send is
    in flight, that send's completion (recorded `via` the old head) reads `providers[0]`
    afresh and reports the new head's type.
  */
  lemma CompletionReportsCurrentHead(w: World, h: Handle, delayMs: nat, id: string)
    requires WellFormed(w) && h in w.deliveries
    requires var d := w.deliveries[h];
      |d.providers| >= 2 && d.attemptsForThisProvider > w.config.maxProviderAttempts
    requires SendCompletion(h, w.deliveries[h].providers[0].kind) in w.pending
    requires Resend(h, delayMs) in w.pending
    ensures var d := w.deliveries[h];
      var inFlight := SendCompletion(h, d.providers[0].kind);
      var w1 := Next(w, Fire(Resend(h, delayMs), SendFailed)).world;
      && w1.deliveries[h].providers == d.providers[1..]
      && inFlight in w1.pending
      && Next(w1, Fire(inFlight, Sent(id))).reply == Returned(d.providers[1].kind)
  {
    var d := w.deliveries[h];
    var inFlight := SendCompletion(h, d.providers[0].kind);
    var w0 := w.(pending := w.pending - multiset{Resend(h, delayMs)});
    assert inFlight in w0.pending;
    var w1 := Next(w, Fire(Resend(h, delayMs), SendFailed)).world;
    assert w1 == AttemptPrefix(w0, h).world;
  }
}

=== FILE: registry.dfy ===
/**
  The provider registry of the attestation service's SMS component: the configured
  providers (`smsProviders`), their configuration from the `SMS_PROVIDERS` list, and the
  queries over them (candidates for a region, lookup by type, the providers that send
  delivery receipts, and the regions no provider can serve).

  The registry is the sequence of configured providers. The source also keeps the same
  providers in an object keyed by type name; both are written together and the type names
  are unique, so lookup by name is computed here from the sequence.
*/
module Registry {
  import opened Common
  import Text

  /** The provider types the configuration switch recognises. */
  datatype ProviderType = Nexmo | Twilio {
    /** The type name used in configuration lists. */
    function Name(): string {
      match this
      case Nexmo => "nexmo"
      case Twilio => "twilio"
    }
  }

  /** The configuration switch: the type a name stands for, if any. */
  function ParseType(name: string): (t: Option<ProviderType>)
    ensures t.Some? ==> t.value.Name() == name
    ensures t.None? ==> forall k: ProviderType :: k.Name() != name
  {
    if name == "nexmo" then Some(Nexmo)
    else if name == "twilio" then Some(Twilio)
    else None
  }

  /**
    What a constructed and initialised provider offers the core. The provider classes are
    not part of this model, so these are data: whether sends produce delivery receipts, the
    region codes the provider cannot serve, and its `canServePhoneNumber(countryCode, phoneNumber)`.
  */
  datatype Capabilities = Capabilities(
    supportsDeliveryStatus: bool,
    unsupportedRegionCodes: seq<string>,
    canServePhoneNumber: (string, string) -> bool)

  datatype Provider = Provider(kind: ProviderType, caps: Capabilities) {
    function Name(): string { kind.Name() }
  }

  /** `configuredSmsProviders()`: the type names of the providers, in configured order. */
  function ConfiguredSmsProviders(providers: seq<Provider>): (names: seq<string>)
    ensures |names| == |providers|
    ensures forall i :: 0 <= i < |providers| ==> names[i] == providers[i].Name()
  {
    seq(|providers|, i requires 0 <= i < |providers| => providers[i].Name())
  }

  /** No two configured providers share a type. */
  ghost predicate Unique(providers: seq<Provider>) {
    forall i, j :: 0 <= i < j < |providers| ==> providers[i].kind != providers[j].kind
  }

  /**
    `smsProviderOfType(name)`: the first configured provider whose type name is `name`. It is
    also what the by-type object answers for `name`, since both hold the same providers.
  */
  function SmsProviderOfType(providers: seq<Provider>, name: string): (r: Option<Provider>)
    ensures r.Some? <==> name in ConfiguredSmsProviders(providers)
    ensures r.Some? ==> r.value.Name() == name && r.value in providers
    ensures Unique(providers) ==>
      forall i :: 0 <= i < |providers| && providers[i].Name() == name ==> r == Some(providers[i])
    decreases |providers|
  {
    if |providers| == 0 then None
    else if providers[0].Name() == name then Some(providers[0])
    else
      var r := SmsProviderOfType(providers[1..], name);
      assert ConfiguredSmsProviders(providers) == [providers[0].Name()] + ConfiguredSmsProviders(providers[1..]);
      r
  }

  datatype ConfigError =
    | NoProviders            // the empty-list check
    | Duplicate(name: string)
    | UnknownType(name: string)

  /** The registry after configuration, and the error that stopped it, if any. */
  datatype Configured = Configured(providers: seq<Provider>, error: Option<ConfigError>)

  /** Every name is a known type, not yet configured and not repeated earlier in the list. */
  ghost predicate Acceptable(have: seq<string>, names: seq<string>) {
    forall i :: 0 <= i < |names| ==>
      ParseType(names[i]).Some? && names[i] !in have && names[i] !in names[..i]
  }

  /** The error the loop raises for a name that is not acceptable after `have`. */
  function Blame(have: seq<string>, name: string): ConfigError {
    if name in have then Duplicate(name) else UnknownType(name)
  }

  lemma AcceptableExtend(have: seq<string>, n: string, names: seq<string>)
    requires ParseType(n).Some? && n !in have
    requires Acceptable(have + [n], names)
    ensures Acceptable(have, [n] + names)
  {
    var all := [n] + names;
    forall i | 0 <= i < |all|
      ensures ParseType(all[i]).Some? && all[i] !in have && all[i] !in all[..i]
    {
      if i > 0 {
        assert all[i] == names[i - 1];
        assert all[..i] == [n] + names[..i - 1];
      }
    }
  }

  lemma AcceptableHead(have: seq<string>, names: seq<string>)
    requires |names| > 0
    requires Acceptable(have, names)
    ensures Acceptable(have + [names[0]], names[1..])
  {
    forall i | 0 <= i < |names[1..]|
      ensures ParseType(names[1..][i]).Some? && names[1..][i] !in have + [names[0]]
      ensures names[1..][i] !in names[1..][..i]
    {
      assert names[1..][i] == names[i + 1];
      assert names[..i + 1] == [names[0]] + names[1..][..i];
    }
  }

  /** Distinct type names mean distinct provider types. */
  lemma UniqueFromNames(providers: seq<Provider>, p: Provider)
    requires Unique(providers)
    requires p.Name() !in ConfiguredSmsProviders(providers)
    ensures Unique(providers + [p])
  {
    var all := providers + [p];
    forall i, j | 0 <= i < j < |all| ensures all[i].kind != all[j].kind {
      if j == |providers| {
        assert ConfiguredSmsProviders(providers)[i] == all[i].Name();
      }
    }
  }

  /**
    The configuration loop: for each name in turn, fail on a name already configured,
    fail on an unknown name, and otherwise append the provider of that type. Providers
    appended before a failure stay configured.
  */
  function Register(providers: seq<Provider>, names: seq<string>, make: ProviderType -> Capabilities): (c: Configured)
    ensures c.error != Some(NoProviders)
    ensures |providers| <= |c.providers| <= |providers| + |names|
    ensures c.providers[..|providers|] == providers
    ensures forall i :: |providers| <= i < |c.providers| ==> c.providers[i].caps == make(c.providers[i].kind)
    decreases |names|
  {
    if |names| == 0 then Configured(providers, None)
    else if SmsProviderOfType(providers, names[0]).Some? then Configured(providers, Some(Duplicate(names[0])))
    else match ParseType(names[0])
      case None => Configured(providers, Some(UnknownType(names[0])))
      case Some(t) =>
        var c := Register(providers + [Provider(t, make(t))], names[1..], make);
        assert c.providers[..|providers|] == (c.providers[..|providers| + 1])[..|providers|];
        c
  }

  /**
    The loop got through the first `k` names, so the configured type names `got` are the
    old ones `have` followed by those, and `err` says why it stopped, if it did.
  */
  ghost predicate StoppedAt(have: seq<string>, names: seq<string>, got: seq<string>, err: Option<ConfigError>, k: int) {
    && 0 <= k <= |names|
    && got == have + names[..k]
    && Acceptable(have, names[..k])
    && (err.None? <==> k == |names|)
    && (err.Some? ==>
          && k < |names|
          && !Acceptable(have, names[..k + 1])
          && err.value == Blame(have + names[..k], names[k]))
  }

  lemma StoppedAtFirst(have: seq<string>, names: seq<string>, err: ConfigError)
    requires |names| > 0
    requires names[0] in have || ParseType(names[0]).None?
    requires err == Blame(have, names[0])
    ensures StoppedAt(have, names, have, Some(err), 0)
  {
    assert names[..1] == [names[0]];
    assert have + names[..0] == have;
  }

  lemma StoppedAtLater(have: seq<string>, names: seq<string>, got: seq<string>, err: Option<ConfigError>, k: int)
    requires |names| > 0 && ParseType(names[0]).Some? && names[0] !in have
    requires StoppedAt(have + [names[0]], names[1..], got, err, k)
    ensures StoppedAt(have, names, got, err, k + 1)
  {
    assert [names[0]] + names[1..][..k] == names[..k + 1];
    assert have + [names[0]] + names[1..][..k] == have + names[..k + 1];
    AcceptableExtend(have, names[0], names[1..][..k]);
    if err.Some? {
      assert [names[0]] + names[1..][..k + 1] == names[..k + 2];
      assert have + names[..k + 1] + [names[k + 1]] == have + [names[0]] + names[1..][..k] + [names[1..][k]];
      assert names[..k + 2][1..] == names[1..][..k + 1];
      if Acceptable(have, names[..k + 2]) {
        AcceptableHead(have, names[..k + 2]);
      }
    }
  }

  /**
    The loop appends exactly the acceptable leading names, one provider each, and stops at
    the first name that is already configured (a duplicate) or not a known type.
  */
  lemma {:induction false} RegisterSpec(providers: seq<Provider>, names: seq<string>, make: ProviderType -> Capabilities)
    ensures var c := Register(providers, names, make);
      StoppedAt(ConfiguredSmsProviders(providers), names, ConfiguredSmsProviders(c.providers), c.error, |c.providers| - |providers|)
    decreases |names|
  {
    var c := Register(providers, names, make);
    var have := ConfiguredSmsProviders(providers);
    if |names| == 0 {
      assert c.providers == providers;
    } else if SmsProviderOfType(providers, names[0]).Some? || ParseType(names[0]).None? {
      assert c.providers == providers;
      StoppedAtFirst(have, names, c.error.value);
    } else {
      var t := ParseType(names[0]).value;
      var p := Provider(t, make(t));
      assert c == Register(providers + [p], names[1..], make);
      RegisterSpec(providers + [p], names[1..], make);
      assert ConfiguredSmsProviders(providers + [p]) == have + [names[0]];
      StoppedAtLater(have, names, ConfiguredSmsProviders(c.providers), c.error, |c.providers| - |providers + [p]|);
    }
  }

  /** Configuration never introduces a second provider of a type already configured. */
  lemma {:induction false} RegisterKeepsUnique(providers: seq<Provider>, names: seq<string>, make: ProviderType -> Capabilities)
    requires Unique(providers)
    ensures Unique(Register(providers, names, make).providers)
    decreases |names|
  {
    if |names| > 0 && SmsProviderOfType(providers, names[0]).None? && ParseType(names[0]).Some? {
      var t := ParseType(names[0]).value;
      UniqueFromNames(providers, Provider(t, make(t)));
      RegisterKeepsUnique(providers + [Provider(t, make(t))], names[1..], make);
    }
  }

  /**
    `initializeSmsProviders`: configure the providers named in the comma-separated
    `SMS_PROVIDERS` value `env`, constructing each with `make`. Splitting never yields an
    empty list, so the empty-list check never fires: an empty value fails as the unknown
    type name "".
  */
  function Configure(providers: seq<Provider>, env: string, make: ProviderType -> Capabilities): (c: Configured)
    ensures c.error != Some(NoProviders)
    ensures |c.providers| >= |providers| && c.providers[..|providers|] == providers
  {
    var names := Text.Split(env, ',');
    if |names| == 0 then Configured(providers, Some(NoProviders))
    else Register(providers, names, make)
  }

  /**
    Configuration succeeds exactly when every listed name is a known type, listed once and
    not configured before; the configured type names are then the old ones followed by the
    list, so joining the new ones with commas gives back the configured value.
  */
  lemma ConfigureSpec(providers: seq<Provider>, env: string, make: ProviderType -> Capabilities)
    ensures var c := Configure(providers, env, make);
      && (c.error.None? <==> Acceptable(ConfiguredSmsProviders(providers), Text.Split(env, ',')))
      && (c.error.None? ==>
            && |c.providers| > |providers|
            && Text.Join(ConfiguredSmsProviders(c.providers)[|providers|..], ',') == env)
      && (Unique(providers) ==> Unique(c.providers))
  {
    var names := Text.Split(env, ',');
    var c := Configure(providers, env, make);
    RegisterSpec(providers, names, make);
    var k := |c.providers| - |providers|;
    assert ConfiguredSmsProviders(c.providers)[|providers|..] == names[..k];
    if c.error.None? {
      assert names[..k] == names;
      Text.JoinSplit(env, ',');
    }
    if Unique(providers) {
      RegisterKeepsUnique(providers, names, make);
    }
  }

  /**
    The override list resolved as the by-type object resolves names: the provider
    registered under each name, or nothing.
  */
  function Resolve(providers: seq<Provider>, names: seq<string>): (pool: seq<Option<Provider>>)
    ensures |pool| == |names|
    ensures forall i :: 0 <= i < |names| ==> pool[i] == SmsProviderOfType(providers, names[i])
  {
    seq(|names|, i requires 0 <= i < |names| => SmsProviderOfType(providers, names[i]))
  }

  /** Every configured provider, as the pool the fallback branch would use. */
  function Everyone(providers: seq<Provider>): (pool: seq<Option<Provider>>)
    ensures |pool| == |providers|
    ensures forall i :: 0 <= i < |providers| ==> pool[i] == Some(providers[i])
  {
    seq(|providers|, i requires 0 <= i < |providers| => Some(providers[i]))
  }

  /** The filter: drop absent entries and providers that cannot serve the number; keep order. */
  function Serving(pool: seq<Option<Provider>>, countryCode: string, phoneNumber: string): (r: seq<Provider>)
    ensures |r| <= |pool|
    ensures forall i :: 0 <= i < |r| ==> r[i].caps.canServePhoneNumber(countryCode, phoneNumber)
    ensures forall i :: 0 <= i < |r| ==> Some(r[i]) in pool
    ensures forall i :: 0 <= i < |pool| && pool[i].Some? && pool[i].value.caps.canServePhoneNumber(countryCode, phoneNumber)
              ==> pool[i].value in r
    decreases |pool|
  {
    if |pool| == 0 then []
    else
      var rest := Serving(pool[1..], countryCode, phoneNumber);
      assert forall i :: 1 <= i < |pool| ==> pool[i] == pool[1..][i - 1];
      if pool[0].Some? && pool[0].value.caps.canServePhoneNumber(countryCode, phoneNumber) then [pool[0].value] + rest
      else rest
  }

  /** The filter works piecewise, so the result follows the order of the pool. */
  lemma {:induction false} ServingConcat(a: seq<Option<Provider>>, b: seq<Option<Provider>>, countryCode: string, phoneNumber: string)
    ensures Serving(a + b, countryCode, phoneNumber) == Serving(a, countryCode, phoneNumber) + Serving(b, countryCode, phoneNumber)
    decreases |a|
  {
    if |a| > 0 {
      assert (a + b)[1..] == a[1..] + b;
      ServingConcat(a[1..], b, countryCode, phoneNumber);
    } else {
      assert a + b == b;
    }
  }

  /**
    `smsProvidersFor(countryCode, phoneNumber)`: the providers named in the region's override
    list `overrideList` (the value of `SMS_PROVIDERS_<countryCode>`, "" when unset), in that
    order, keeping those that are configured and can serve the number. The fallback to all
    configured providers applies only to an empty list of names, which splitting never gives.
  */
  function SmsProvidersFor(providers: seq<Provider>, overrideList: string, countryCode: string, phoneNumber: string): (r: seq<Provider>)
    ensures |r| <= |Text.Split(overrideList, ',')|
    ensures forall i :: 0 <= i < |r| ==>
      && r[i].caps.canServePhoneNumber(countryCode, phoneNumber)
      && r[i] in providers
      && r[i].Name() in Text.Split(overrideList, ',')
    ensures forall n :: n in Text.Split(overrideList, ',') && SmsProviderOfType(providers, n).Some? ==>
      (SmsProviderOfType(providers, n).value in r <==>
       SmsProviderOfType(providers, n).value.caps.canServePhoneNumber(countryCode, phoneNumber))
  {
    var names := Text.Split(overrideList, ',');
    var pool := if |names| == 0 then Everyone(providers) else Resolve(providers, names);
    var r := Serving(pool, countryCode, phoneNumber);
    forall i | 0 <= i < |r|
      ensures r[i] in providers && r[i].Name() in names
    {
      var j :| 0 <= j < |pool| && pool[j] == Some(r[i]);
      assert SmsProviderOfType(providers, names[j]) == Some(r[i]);
    }
    r
  }

  /** Each comma-separated segment of an override list contributes its own candidates, in place. */
  lemma SmsProvidersForConcat(providers: seq<Provider>, first: string, rest: string, countryCode: string, phoneNumber: string)
    requires ',' !in first
    ensures SmsProvidersFor(providers, first + "," + rest, countryCode, phoneNumber)
         == SmsProvidersFor(providers, first, countryCode, phoneNumber) + SmsProvidersFor(providers, rest, countryCode, phoneNumber)
  {
    Text.SplitCons(first, ',', rest);
    Text.SplitPlain(first, ',');
    var names := Text.Split(first + "," + rest, ',');
    var tail := Text.Split(rest, ',');
    assert first + "," + rest == first + [','] + rest;
    assert Resolve(providers, names) == Resolve(providers, [first]) + Resolve(providers, tail);
    ServingConcat(Resolve(providers, [first]), Resolve(providers, tail), countryCode, phoneNumber);
  }

  /** A single name yields its provider when that is configured and can serve the number, else nothing. */
  lemma SmsProvidersForOne(providers: seq<Provider>, name: string, countryCode: string, phoneNumber: string)
    requires ',' !in name
    ensures SmsProvidersFor(providers, name, countryCode, phoneNumber)
         == match SmsProviderOfType(providers, name)
            case Some(p) => if p.caps.canServePhoneNumber(countryCode, phoneNumber) then [p] else []
            case None => []
  {
    Text.SplitPlain(name, ',');
    assert Serving(Resolve(providers, [name])[1..], countryCode, phoneNumber) == [];
  }

  /** `smsProvidersWithDeliveryStatus()`: the providers that send delivery receipts, in configured order. */
  function SmsProvidersWithDeliveryStatus(providers: seq<Provider>): (r: seq<Provider>)
    ensures |r| <= |providers|
    ensures forall i :: 0 <= i < |r| ==> r[i].caps.supportsDeliveryStatus && r[i] in providers
    ensures forall i :: 0 <= i < |providers| && providers[i].caps.supportsDeliveryStatus ==> providers[i] in r
    decreases |providers|
  {
    if |providers| == 0 then []
    else
      var rest := SmsProvidersWithDeliveryStatus(providers[1..]);
      assert forall i :: 1 <= i < |providers| ==> providers[i] == providers[1..][i - 1];
      if providers[0].caps.supportsDeliveryStatus then [providers[0]] + rest else rest
  }

  /** The receipt-capable providers of a concatenation are those of each part, in order. */
  lemma {:induction false} WithDeliveryStatusConcat(a: seq<Provider>, b: seq<Provider>)
    ensures SmsProvidersWithDeliveryStatus(a + b) == SmsProvidersWithDeliveryStatus(a) + SmsProvidersWithDeliveryStatus(b)
    decreases |a|
  {
    if |a| > 0 {
      assert (a + b)[1..] == a[1..] + b;
      WithDeliveryStatusConcat(a[1..], b);
    } else {
      assert a + b == b;
    }
  }

  /**
    `unsupportedRegionCodes()`: the intersection of every configured provider's unsupported
    region codes, as a set. The intersection of no lists at all is taken to be empty.
  */
  function UnsupportedRegionCodes(providers: seq<Provider>): (codes: set<string>)
    ensures |providers| == 0 ==> codes == {}
    ensures |providers| > 0 ==> forall c :: c in codes <==>
      (forall i :: 0 <= i < |providers| ==> c in providers[i].caps.unsupportedRegionCodes)
    decreases |providers|
  {
    if |providers| == 0 then {}
    else
      var mine := set c | c in providers[0].caps.unsupportedRegionCodes;
      if |providers| == 1 then mine
      else
        var rest := UnsupportedRegionCodes(providers[1..]);
        assert forall i :: 1 <= i < |providers| ==> providers[i] == providers[1..][i - 1];
        mine * rest
  }
}

=== FILE: scenarios.dfy ===
/**
  Worked runs of the whole module from its initial state, with Nexmo configured and
  named in the override list of region "GB". Each run is a chain of steps whose
  intermediate worlds are written out.
*/
module Scenarios {
  import opened Common
  import Text
  import opened Registry
  import opened Deliveries
  import opened Orchestrator

  function AlwaysServes(countryCode: string, phoneNumber: string): bool { true }

  /** The providers as constructed: both send receipts and can serve every number. */
  function Make(t: ProviderType): Capabilities {
    Capabilities(true, [], AlwaysServes)
  }

  const Phone: string := "+441234"
  const Nx: Provider := Provider(Nexmo, Make(Nexmo))

  function Cfg(maxProviderAttempts: int): Config {
    Config(maxProviderAttempts, 600000, map["GB" := "nexmo"])
  }

  /** The world once `SMS_PROVIDERS=nexmo` is configured. */
  function Ready(maxProviderAttempts: int): World {
    World(Cfg(maxProviderAttempts), [Nx], map[], map[], multiset{}, 0)
  }

  /** The delivery after `sends` sends to Nexmo, the last with counter `attempts`. */
  function Sending(attempts: nat, sends: nat, id: Option<string>, status: DeliveryStatus, delivered: nat): Delivery {
    Delivery("GB", Phone, "code", [Nx], attempts, id, status, true, true, Tally([Nx], sends, 0, delivered))
  }

  lemma Configures(maxProviderAttempts: int)
    ensures Next(Init(Cfg(maxProviderAttempts)), Initialize("nexmo", Make)) == Step(Ready(maxProviderAttempts), Quiet)
  {
    Text.SplitPlain("nexmo", ',');
  }

  lemma Starts(maxProviderAttempts: int)
    requires maxProviderAttempts >= 0
    ensures Next(Ready(maxProviderAttempts), Start(Phone, "code", Some("GB"), true, true))
         == Step(World(Cfg(maxProviderAttempts), [Nx], map[0 := Sending(1, 1, None, NotCreated, 0)], map[],
                       multiset{SendCompletion(0, Nexmo)}, 1), Suspended)
  {
    Text.SplitPlain("nexmo", ',');
    SmsProvidersForOne([Nx], "nexmo", "GB", Phone);
  }

  /**
    Scenario: the send succeeds with id "X1" and is tracked under it, with the cleanup
    timer armed; a `Delivered` receipt then invokes the believed-delivered callback once and
    forgets "X1".
  */
  lemma DeliveredReceipt()
    ensures
      var w2 := World(Cfg(3), [Nx], map[0 := Sending(1, 1, None, NotCreated, 0)], map[], multiset{SendCompletion(0, Nexmo)}, 1);
      var w3 := World(Cfg(3), [Nx], map[0 := Sending(1, 1, Some("X1"), Created, 0)], map["X1" := 0],
                      multiset{Expiry(0, "X1", 600000)}, 1);
      var w4 := World(Cfg(3), [Nx], map[0 := Sending(1, 1, Some("X1"), Delivered, 1)], map[],
                      multiset{Expiry(0, "X1", 600000)}, 1);
      && Next(w2, Fire(SendCompletion(0, Nexmo), Sent("X1"))) == Step(w3, Returned(Nexmo))
      && Next(w3, Report("X1", Delivered)) == Step(w4, Quiet)
  {
    var w2 := World(Cfg(3), [Nx], map[0 := Sending(1, 1, None, NotCreated, 0)], map[], multiset{SendCompletion(0, Nexmo)}, 1);
    assert w2.pending - multiset{SendCompletion(0, Nexmo)} == multiset{};
    var w3 := World(Cfg(3), [Nx], map[0 := Sending(1, 1, Some("X1"), Created, 0)], map["X1" := 0],
                    multiset{Expiry(0, "X1", 600000)}, 1);
    assert w3.tracker - {"X1"} - {FieldKey} == map[];
  }

  /**
    Scenario: no receipt arrives; the cleanup timer fires while the delivery still holds
    "X1", invokes the believed-delivered callback and forgets "X1".
  */
  lemma ExpiryWithoutReceipt()
    ensures
      var w3 := World(Cfg(3), [Nx], map[0 := Sending(1, 1, Some("X1"), Created, 0)], map["X1" := 0],
                      multiset{Expiry(0, "X1", 600000)}, 1);
      var w4 := World(Cfg(3), [Nx], map[0 := Sending(1, 1, None, Created, 1)], map[], multiset{}, 1);
      Next(w3, Fire(Expiry(0, "X1", 600000), SendFailed)) == Step(w4, Quiet)
  {
    var w3 := World(Cfg(3), [Nx], map[0 := Sending(1, 1, Some("X1"), Created, 0)], map["X1" := 0],
                    multiset{Expiry(0, "X1", 600000)}, 1);
    assert w3.pending - multiset{Expiry(0, "X1", 600000)} == multiset{};
    assert w3.tracker - {"X1"} == map[];
  }

  /** The world while Nexmo has been sent to `k` times with no id, waiting on event `e`. */
  function Waiting(maxProviderAttempts: int, k: nat, e: Event): World {
    World(Cfg(maxProviderAttempts), [Nx], map[0 := Sending(k, k, None, NotCreated, 0)], map[], multiset{e}, 1)
  }

  /** A failed send backs off for `2^k` seconds. */
  lemma FailedSendBacksOff(k: nat)
    ensures Next(Waiting(3, k, SendCompletion(0, Nexmo)), Fire(SendCompletion(0, Nexmo), SendFailed))
         == Step(Waiting(3, k, BackoffRetry(0, Pow2(k) * 1000)), Suspended)
  {
    assert multiset{SendCompletion(0, Nexmo)} - multiset{SendCompletion(0, Nexmo)} == multiset{};
  }

  /** While the counter is at most the maximum, the retry sends to Nexmo again. */
  lemma RetryResends(k: nat)
    requires k <= 3
    ensures Next(Waiting(3, k, BackoffRetry(0, Pow2(k) * 1000)), Fire(BackoffRetry(0, Pow2(k) * 1000), SendFailed))
         == Step(Waiting(3, k + 1, SendCompletion(0, Nexmo)), Suspended)
  {
    var e := BackoffRetry(0, Pow2(k) * 1000);
    var w := Waiting(3, k, e);
    assert w.pending - multiset{e} == multiset{};
    RetryPrefix(k, Pow2(k) * 1000);
  }

  lemma RetryPrefix(k: nat, delayMs: nat)
    requires k <= 3
    ensures AttemptPrefix(Waiting(3, k, BackoffRetry(0, delayMs)).(pending := multiset{}), 0)
         == Step(Waiting(3, k + 1, SendCompletion(0, Nexmo)), Suspended)
  {
    var w0 := Waiting(3, k, BackoffRetry(0, delayMs)).(pending := multiset{});
    var d := w0.deliveries[0];
    assert !Retracks(d) && d.attemptsForThisProvider <= w0.config.maxProviderAttempts;
    var d3 := d.(attemptsForThisProvider := k + 1, tally := d.tally.(sends := k + 1));
    assert d3 == Sending(k + 1, k + 1, None, NotCreated, 0);
    assert w0.deliveries[0 := d3] == map[0 := d3];
  }

  /**
    Scenario: with a maximum of 3, the only provider fails four times (counter 1 to 4).
    The retry after the fourth failure drops it, finds no provider left, invokes the final
    failure callback and raises; nothing was ever tracked.
  */
  lemma OnlyProviderExhausted()
    ensures Next(Waiting(3, 4, BackoffRetry(0, 16000)), Fire(BackoffRetry(0, 16000), SendFailed))
         == Step(World(Cfg(3), [Nx], map[0 := Delivery("GB", Phone, "code", [], 0, None, NotCreated, true, true, Tally([Nx], 4, 1, 0))],
                       map[], multiset{}, 1),
                 Raised(AllProvidersFailed))
  {
    assert multiset{BackoffRetry(0, 16000)} - multiset{BackoffRetry(0, 16000)} == multiset{};
  }

  /** The world with "X1" tracked after one send, its cleanup timer armed. */
  function TrackedOnce(status: DeliveryStatus): World {
    World(Cfg(3), [Nx], map[0 := Sending(1, 1, Some("X1"), status, 0)], map["X1" := 0],
          multiset{Expiry(0, "X1", 600000)}, 1)
  }

  /** The world after the resend: "X1" is tracked again but the delivery's id is cleared. */
  function Resent(pending: multiset<Event>): World {
    World(Cfg(3), [Nx], map[0 := Sending(2, 2, None, Failed, 0)], map["X1" := 0], pending, 1)
  }

  /** Scenario: a `Failed` receipt for "X1" forgets it and schedules a resend after `2^1 * 3` seconds. */
  lemma FailedReceiptSchedulesResend()
    ensures Next(TrackedOnce(Created), Report("X1", Failed))
         == Step(TrackedOnce(Failed).(tracker := map[], pending := multiset{Expiry(0, "X1", 600000), Resend(0, 6000)}), Quiet)
  {
    assert TrackedOnce(Created).tracker - {"X1"} - {FieldKey} == map[];
    assert Pow2(1) * 3000 == 6000;
  }

  /**
    Scenario: the resend keeps the counter (it continues at 2), puts "X1" back into the
    tracker and sends again.
  */
  lemma ResendRetracks()
    ensures
      var w := TrackedOnce(Failed).(tracker := map[], pending := multiset{Expiry(0, "X1", 600000), Resend(0, 6000)});
      Next(w, Fire(Resend(0, 6000), SendFailed))
        == Step(Resent(multiset{Expiry(0, "X1", 600000), SendCompletion(0, Nexmo)}), Suspended)
  {
    var w := TrackedOnce(Failed).(tracker := map[], pending := multiset{Expiry(0, "X1", 600000), Resend(0, 6000)});
    assert w.pending - multiset{Resend(0, 6000)} == multiset{Expiry(0, "X1", 600000)};
    ResendPrefix();
  }

  lemma ResendPrefix()
    ensures AttemptPrefix(TrackedOnce(Failed).(tracker := map[], pending := multiset{Expiry(0, "X1", 600000)}), 0)
         == Step(Resent(multiset{Expiry(0, "X1", 600000), SendCompletion(0, Nexmo)}), Suspended)
  {
  }

  /** Scenario: the cleanup timer for "X1" then finds the delivery's id cleared and does nothing. */
  lemma StaleExpiryIgnored()
    ensures Next(Resent(multiset{Expiry(0, "X1", 600000), SendCompletion(0, Nexmo)}), Fire(Expiry(0, "X1", 600000), SendFailed))
         == Step(Resent(multiset{SendCompletion(0, Nexmo)}), Quiet)
  {
    var w := Resent(multiset{Expiry(0, "X1", 600000), SendCompletion(0, Nexmo)});
    assert w.pending - multiset{Expiry(0, "X1", 600000)} == multiset{SendCompletion(0, Nexmo)};
  }
}

=== FILE: text.dfy ===
/**
  JavaScript's `String.prototype.split` with a one-character separator, and its inverse
  `Array.prototype.join`. Configuration lists such as `nexmo,twilio` are read this way.
*/
module Text {

  /** `s.split(sep)`: the pieces between separators; the empty string yields one empty piece. */
  function Split(s: string, sep: char): (parts: seq<string>)
    ensures |parts| >= 1
    ensures forall i :: 0 <= i < |parts| ==> sep !in parts[i]
    decreases |s|
  {
    if |s| == 0 then [""]
    else
      var rest := Split(s[1..], sep);
      if s[0] == sep then [""] + rest
      else [[s[0]] + rest[0]] + rest[1..]
  }

  /** `parts.join(sep)` for a non-empty list. */
  function Join(parts: seq<string>, sep: char): (s: string)
    requires |parts| >= 1
    decreases |parts|
  {
    if |parts| == 1 then parts[0] else parts[0] + [sep] + Join(parts[1..], sep)
  }

  /** Splitting and joining again gives back the original text. */
  lemma {:induction false} JoinSplit(s: string, sep: char)
    ensures Join(Split(s, sep), sep) == s
    decreases |s|
  {
    if |s| > 0 {
      var rest := Split(s[1..], sep);
      JoinSplit(s[1..], sep);
      if s[0] == sep {
        assert Split(s, sep) == [""] + rest;
        assert ([""] + rest)[1..] == rest;
        assert Join(Split(s, sep), sep) == "" + [sep] + Join(rest, sep);
        assert [s[0]] + s[1..] == s;
      } else if |rest| == 1 {
        assert Split(s, sep) == [[s[0]] + rest[0]];
        assert [s[0]] + s[1..] == s;
      } else {
        var parts := Split(s, sep);
        assert parts == [[s[0]] + rest[0]] + rest[1..];
        assert parts[1..] == rest[1..];
        assert Join(parts, sep) == [s[0]] + rest[0] + [sep] + Join(rest[1..], sep);
        assert Join(rest, sep) == rest[0] + [sep] + Join(rest[1..], sep);
        assert [s[0]] + s[1..] == s;
      }
    }
  }

  /** A piece without separators splits into itself. */
  lemma {:induction false} SplitPlain(a: string, sep: char)
    requires sep !in a
    ensures Split(a, sep) == [a]
    decreases |a|
  {
    if |a| > 0 {
      SplitPlain(a[1..], sep);
      assert [a[0]] + a[1..] == a;
    }
  }

  /** A leading piece without separators splits off on its own. */
  lemma {:induction false} SplitCons(a: string, sep: char, b: string)
    requires sep !in a
    ensures Split(a + [sep] + b, sep) == [a] + Split(b, sep)
    decreases |a|
  {
    var s := a + [sep] + b;
    if |a| == 0 {
      assert s[0] == sep && s[1..] == b;
    } else {
      assert s[1..] == a[1..] + [sep] + b;
      SplitCons(a[1..], sep, b);
      assert [a[0]] + a[1..] == a;
    }
  }

  /** Joining separator-free pieces and splitting again gives back the pieces. */
  lemma {:induction false} SplitJoin(parts: seq<string>, sep: char)
    requires |parts| >= 1
    requires forall i :: 0 <= i < |parts| ==> sep !in parts[i]
    ensures Split(Join(parts, sep), sep) == parts
    decreases |parts|
  {
    if |parts| == 1 {
      SplitPlain(parts[0], sep);
    } else {
      SplitJoin(parts[1..], sep);
      SplitCons(parts[0], sep, Join(parts[1..], sep));
      assert [parts[0]] + parts[1..] == parts;
    }
  }
}
